=== FILE: README.md ===
# Social app core in Dafny: follows, privacy settings, comments, profile and post views

This project models the client-side logic of a small social network built with Next.js
on top of a Supabase (PostgREST) store. It covers the follow button, the privacy
settings panel, the settings form with its server action, the comments section, the
profile header and the post card, plus the shared record types. Every store call
(`select`, `insert`, `update`, `delete`, `upsert`, `rpc`) becomes an explicit reply
parameter: success or failure, the returned row, or the fresh id. Each operation is then a
pure function from the current store and local component state, together with those
replies, to the next store and local state.

Modules (one per source file):

- `Wrappers`: `Option` and `Result`.
- `Types` (`lib/types.ts`): user profile, post, media, comment and follow records.
  Also the `'public' | 'followers' | 'private'` visibility and the rule
  "a non-public account requires approval".
- `Strings`: the JavaScript string operations the components use, namely one-character
  `split`, `trim` (with the ECMAScript white-space and line-terminator set), and ASCII
  upper-casing.
- `FollowButton` (`follow-button.tsx`): the `follows` table is a sequence of rows, read
  through the ordered pair (follower, following). The module covers the status read on
  mount, the click handler (unfollow, reuse an existing row, or insert a `pending` or
  `accepted` row), the button label and variant, and the render guard.
- `PrivacySettings` (`privacy-settings.tsx`): the nine-field settings record and its
  defaults, the fetch, where "no row" (`PGRST116`) is not an error. It also covers the
  single-key update that derives `allow_follow_requests` from a visibility change, and the
  visibility description.
- `SettingsActions` (`actions.ts`): the `updateProfile` server action over a store with
  `profiles` and `privacy_settings` maps.
- `SettingsForm` (`settings-form.tsx`): the client-side schema, the default values
  (JavaScript `||` fallbacks), submission and the view-mode labels.
- `CommentsSection` (`comments-section.tsx`): fetch and assembly of a two-level thread
  ordered by `created_at`, the comment count, and submitting a comment or reply. It also
  covers the reply-target toggle and which rendered comments offer "Reply".
- `ProfileHeader` (`profile-header.tsx`): own-profile controls, the counter refresh, the
  edit-form input, saving an edit with the redirect on a new username, the private-account
  notice and the avatar fallback initial.
- `PostCard` (`post-card.tsx`): hashtag rendering of post text and the media preview with
  its 800×600 fallback.

## Model

| member | source | states |
|---|---|---|
| Types.ParseVisibility | Website/src/lib/types.ts:35 | Only the three visibility names are accepted; a parsed name prints back as the same string, and a rejected string is none of the three names |
| Types.ParseName | Website/src/lib/types.ts:35 | Every visibility value parses back from its own name |
| Strings.Split | Website/src/components/feed/post-card.tsx:64 | `split('#')` yields one part more than there are separators; no part contains the separator; the first part is the text before the first separator |
| Strings.JoinSplit | Website/src/components/feed/post-card.tsx:64 | Joining the parts of a split with the separator gives back the original text |
| Strings.Trim | Website/src/components/feed/comments-section.tsx:113 | `trim()` returns a contiguous slice of its input that neither starts nor ends with white space |
| Strings.TrimEmptyIffBlank | Website/src/components/feed/comments-section.tsx:96 | A comment trims to the empty string exactly when it consists only of white space |
| Strings.TrimIdempotent | Website/src/components/feed/comments-section.tsx:113 | Trimming a trimmed text changes nothing |
| Strings.UpperChar | Website/src/components/profile/profile-header.tsx:107 | A lower-case ASCII letter becomes its upper-case letter; every other character is left as it is; the result is never a lower-case ASCII letter |
| Strings.UpperIdempotent | Website/src/components/profile/profile-header.tsx:107 | Upper-casing twice equals upper-casing once, and two characters upper-case alike only when they are equal or differ exactly in ASCII case |
| Strings.OrElse | Website/src/components/settings/settings-form.tsx:52-54 | JavaScript's or-fallback keeps a non-empty value and replaces a null or empty one; the result is empty exactly when both the value and the fallback are |
| Strings.OrElseSettles | Website/src/components/settings/settings-form.tsx:52-54 | Applying the same fallback to its own result changes nothing |
| FollowButton.Lookup | Website/src/lib/types.ts:78-84 | The stored edge from one account to another: none exactly when no row links the ordered pair; a found status belongs to a row linking the pair |
| FollowButton.Matches | Website/src/lib/types.ts:78-84 | The number of rows linking a pair is zero exactly when the table has no edge for it, and never more than the rows |
| FollowButton.Read | Website/src/components/feed/follow-button.tsx:37-42 | A `.single()` or `.maybeSingle()` read of the edge returns a status exactly when one row links the pair, and that status is the row's; with no row or with several rows it returns no data |
| FollowButton.UniqueAtMostOne | Website/src/components/feed/follow-button.tsx:37-42 | In a table without duplicate pairs, at most one row links any pair |
| FollowButton.ReadUnique | Website/src/components/feed/follow-button.tsx:107-112 | In a table without duplicate pairs, a read reports exactly the stored edge |
| FollowButton.DeleteEdge | Website/src/components/feed/follow-button.tsx:81-85 | Deleting the edge removes exactly the rows linking the pair; afterwards no edge is found for it, and every other pair reads as before |
| FollowButton.DeleteKeepsUnique | Website/src/components/feed/follow-button.tsx:81-85 | Deleting an edge keeps "at most one row per ordered pair" |
| FollowButton.InsertKeepsUnique | Website/src/components/feed/follow-button.tsx:124-131 | Inserting a row for a pair that has no edge keeps "at most one row per ordered pair" |
| FollowButton.CheckFollowStatus | Website/src/components/feed/follow-button.tsx:32-54 | With no viewer id, or an empty one (JavaScript treats `""` as false), the state is untouched; a thrown read resets to "not following"; a row read back sets "following" exactly for an accepted status and records that status; when no single row is read (none or several) the state stays as it was |
| FollowButton.CheckEstablishesMirror | Website/src/components/feed/follow-button.tsx:32-54 | After the mount-time read, starting from the initial state, the button state mirrors the stored edge |
| FollowButton.RequestedStatus | Website/src/components/feed/follow-button.tsx:103 | A follow of a private account is requested as `pending`, any other as `accepted` |
| FollowButton.InsertLabelShowsPrivacy | Website/src/components/feed/follow-button.tsx:103-148 | After a successful insert the button reads "Requested" exactly for a private target and "Following" otherwise; an insert never asks for `declined` |
| FollowButton.HandleFollow | Website/src/components/feed/follow-button.tsx:56-176 | A click is refused without a user id (a missing or empty id is falsy) or on oneself, touching nothing. While the button shows "following" or "requested", the click deletes the edge and reports the delete's reply. Otherwise an edge returned by the existence read is reused: "following" is shown and nothing is written. Failing that, the click inserts exactly when the insert succeeds: one row appended with the requested status, the button mirroring it. A failed delete or insert changes neither the store nor the button |
| FollowButton.ClickKeepsUnique | Website/src/components/feed/follow-button.tsx:79-131 | A click never creates a second row for the same ordered pair |
| FollowButton.ClickKeepsMirror | Website/src/components/feed/follow-button.tsx:79-148 | In a table without duplicate pairs, if the button mirrored the stored edge before a click (and the edge is not declined), the table is still duplicate-free and the button still mirrors the edge afterwards, whatever the store replies, including a failed existence read |
| FollowButton.DuplicateEdgeInsertsAgain | Website/src/components/feed/follow-button.tsx:37-42 | With two or more rows for the pair, the mount-time read leaves the button at "Follow" and a click inserts yet another row |
| FollowButton.DeclinedEdgeShownAsFollowing | Website/src/components/feed/follow-button.tsx:107-121 | A declined edge is shown as "Follow"; clicking it leaves the row declined in the store but shows "Following" locally |
| FollowButton.FollowThenUnfollow | Website/src/components/feed/follow-button.tsx:79-148 | Follow then unfollow, with every store call succeeding, restores both the table and the initial button state |
| FollowButton.ButtonLabel | Website/src/components/feed/follow-button.tsx:178-203 | A state mirroring a pending edge reads "Requested", an accepted one "Following", a declined one or the initial state "Follow" |
| FollowButton.ButtonVariant | Website/src/components/feed/follow-button.tsx:205-213 | A state mirroring a pending edge is secondary, an accepted one outline, a declined one or the initial state default |
| FollowButton.VariantFollowsLabel | Website/src/components/feed/follow-button.tsx:178-213 | The button variant is determined by the label: pending is secondary, following is outline, follow is default |
| FollowButton.LabelPredictsClick | Website/src/components/feed/follow-button.tsx:178-203 | When the label says "Following" or "Requested", a click attempts an unfollow; when it says "Follow", a click attempts a follow |
| FollowButton.ShouldRender | Website/src/components/feed/follow-button.tsx:215-217 | Definition: the button is drawn for a viewer with a non-empty id looking at another account (its agreement with the click guards is the next row) |
| FollowButton.RenderGuardMatchesClickGuards | Website/src/components/feed/follow-button.tsx:215-217 | The button is rendered exactly when neither click guard (no user, self) would refuse |
| PrivacySettings.Put | Website/src/components/privacy/privacy-settings.tsx:84-85 | Setting one key makes that key hold the new value and leaves every other key unchanged |
| PrivacySettings.UpdateSetting | Website/src/components/privacy/privacy-settings.tsx:81-132 | The upsert carries the changed key, plus `allow_follow_requests` ("not public") for a visibility change, and nothing else; on success the local settings are the old ones merged with exactly that patch, agree with everything sent, and keep every other key; on failure local state is unchanged |
| PrivacySettings.VisibilityUpdateDerivesFlag | Website/src/components/privacy/privacy-settings.tsx:89-98 | A saved visibility change sets `allow_follow_requests` to "visibility is not public" |
| PrivacySettings.UpdateKeepsDerived | Website/src/components/privacy/privacy-settings.tsx:81-132 | An update that does not touch `allow_follow_requests` directly keeps the flag derived from visibility |
| PrivacySettings.DefaultsNotDerived | Website/src/components/privacy/privacy-settings.tsx:32-42 | The default settings are public yet allow follow requests, so they do not satisfy the derivation |
| PrivacySettings.FetchPrivacySettings | Website/src/components/privacy/privacy-settings.tsx:51-79 | The fetch fails only on an error other than "no row"; a returned row replaces the settings; otherwise the defaults stay |
| PrivacySettings.FetchTwiceSameAsOnce | Website/src/components/privacy/privacy-settings.tsx:51-79 | Loading the same answer twice gives the same settings and error flag as loading it once |
| PrivacySettings.FetchWithoutRowKeepsDefaults | Website/src/components/privacy/privacy-settings.tsx:51-68 | An account without a settings row (a "not found" error or no error at all) keeps the initial settings without an error, so what is shown breaks the follow-request rule |
| PrivacySettings.VisibilityDescription | Website/src/components/privacy/privacy-settings.tsx:147-158 | Definition: the sentence for each of the three visibility names and the empty string for anything else (its properties are the next row) |
| PrivacySettings.DescriptionsPromiseApproval | Website/src/components/privacy/privacy-settings.tsx:147-158 | The followers and private sentences end by promising approval; the public one does not |
| PrivacySettings.DescriptionMatchesDerivation | Website/src/components/privacy/privacy-settings.tsx:147-158 | A description exists exactly for the three visibility names, and it mentions approval exactly when the visibility requires approval |
| SettingsActions.ProfileOf | Website/src/components/settings/actions.ts:32-41 | The updated profile row takes display name and username from the form, the form's bio when it has one, and keeps the stored bio when the form has none (an undefined key is not sent) |
| SettingsActions.UpdateWhere | Website/src/components/settings/actions.ts:32-44 | An `update ... eq(user_id)` replaces the user's row if present, creates none if absent, and leaves other rows alone |
| SettingsActions.UpdateProfile | Website/src/components/settings/actions.ts:23-74 | Without a user nothing changes and the result is the "must be logged in" message; a profile error is returned at once with nothing written. The user's profile row holds the form's name and username, and keeps its bio when the form leaves the bio out. The action succeeds exactly when the profile update succeeds and either the privacy update succeeds or the fallback insert creates a missing row; the privacy update's own error is never returned, only the insert's. After success an existing privacy row holds the form values; no privacy row is removed, only the user's can be added, and other users' rows never change. A failed save leaves the privacy table exactly as it was |
| SettingsActions.MissingPrivacyRowNotCreated | Website/src/components/settings/actions.ts:46-70 | For a user with no privacy row, the action reports success when every call succeeds, yet still leaves no privacy row |
| SettingsActions.UpdateProfileCorrected | Website/src/components/settings/actions.ts:58-70 | With the missing row inserted, success implies that the user's privacy row exists and holds the form values; success happens exactly when the profile update succeeds and the row is written, by the update when it exists and by the insert otherwise. Any failure leaves the privacy table exactly as it was |
| SettingsActions.CorrectionAgreesOnExistingRow | Website/src/components/settings/actions.ts:46-70 | When the privacy row exists, the corrected action behaves exactly like the original |
| SettingsActions.SaveCanBreakDerivation | Website/src/components/settings/actions.ts:47-56 | The action stores a public account that allows follow requests, so the derivation is not maintained |
| SettingsForm.Validate | Website/src/components/settings/settings-form.tsx:22-31 | A form validates exactly when the display name has at least 1 character, the username at least 3, the bio at most 160, and the visibility is one of the three names. Missing switches default to true; each failing rule is reported |
| SettingsForm.FlagIndependentOfVisibility | Website/src/components/settings/settings-form.tsx:27-29 | Any visibility can be combined with any `allow_follow_requests` value in a valid form |
| SettingsForm.DefaultValues | Website/src/components/settings/settings-form.tsx:49-59 | The initial form keeps a non-empty stored name and username and starts a null or empty one as the empty string; the bio is always set, equal to the stored bio or empty when there is none; the visibility is always a name the schema accepts (public when missing); the switches start as stored |
| SettingsForm.DefaultsOfValidRowValidate | Website/src/components/settings/settings-form.tsx:49-59 | Default values built from stored rows that meet the rules pass validation and carry the stored values |
| SettingsForm.DefaultsOfEmptyRowRejected | Website/src/components/settings/settings-form.tsx:52-53 | A profile without display name or username yields defaults that fail validation |
| SettingsForm.ServerSkipsValidation | Website/src/components/settings/actions.ts:23-44 | The server action stores values that the client schema would reject, keeping the stored bio when the form leaves it out |
| SettingsForm.SubmitForm | Website/src/components/settings/settings-form.tsx:61-71 | Only a valid form is sent, carrying the validated values; the form leaves edit mode exactly when it was sent and the reply's error is not truthy; the schema's errors are recorded in the form state exactly when nothing was sent |
| SettingsForm.ViewingMeansValidSent | Website/src/components/settings/settings-form.tsx:61-71 | Back in the read-only view, the values sent satisfy every length rule of the schema and the action reported no error |
| SettingsForm.LabelsDistinguishValues | Website/src/components/settings/settings-form.tsx:75-83 | The view-mode labels are different for different values |
| CommentsSection.HandleReply | Website/src/components/feed/comments-section.tsx:145-147 | Clicking "Reply" clears the target when it already is this comment and otherwise targets this comment |
| CommentsSection.ReplyTwice | Website/src/components/feed/comments-section.tsx:145-147 | Two clicks on the same comment restore the target exactly when it was empty or that comment; otherwise they leave it empty |
| CommentsSection.SubmitComment | Website/src/components/feed/comments-section.tsx:95-143 | Blank text, or a missing or empty user id, does nothing. A comment is posted exactly when the guard passes and both the table check and the insert succeed: one row is appended with the trimmed, non-empty text under the right parent, the composer is cleared, a count increment is requested and the thread is reloaded. Any other submit leaves store and composer unchanged, requests no increment and reloads nothing |
| CommentsSection.SortByTime | Website/src/components/feed/comments-section.tsx:56 | Ordering by `created_at` yields a sorted permutation of the rows |
| CommentsSection.TopLevel | Website/src/components/feed/comments-section.tsx:48-56 | The top-level query returns exactly the stored comments of the post that have no parent |
| CommentsSection.RepliesTo | Website/src/components/feed/comments-section.tsx:65-70 | The reply query returns exactly the stored comments whose parent is the given comment |
| CommentsSection.AssembleThread | Website/src/components/feed/comments-section.tsx:48-77 | The assembled thread has one entry per top-level comment |
| CommentsSection.ThreadShape | Website/src/components/feed/comments-section.tsx:61-77 | For rows as stored (no nested replies): every thread entry is top-level, each of its replies points to it and has no replies of its own, and both levels are oldest first |
| CommentsSection.ThreadMembers | Website/src/components/feed/comments-section.tsx:48-77 | For rows as stored, the thread's entries, without their replies, are exactly the post's top-level comments |
| CommentsSection.ThreadReplies | Website/src/components/feed/comments-section.tsx:61-77 | An entry whose reply read succeeded holds its stored replies (as a multiset); one whose read failed holds none |
| CommentsSection.ThreadContents | Website/src/components/feed/comments-section.tsx:48-77 | For rows as stored, thread entries are exactly the post's top-level comments. A comment whose reply read succeeded carries exactly its stored replies; one whose read failed carries none |
| CommentsSection.TopLevelAppend | Website/src/components/feed/comments-section.tsx:48-56 | Appending a row adds it to the end of the top-level list exactly when it is a top-level comment of the post |
| CommentsSection.TopLevelCountAppend | Website/src/components/feed/comments-section.tsx:48-56 | Appending a row raises the top-level count by one exactly when it is a top-level comment of the post |
| CommentsSection.ReloadAfterAppend | Website/src/components/feed/comments-section.tsx:79-80 | A successful reload after one row was appended reports one more comment exactly when that row is a top-level comment of the post |
| CommentsSection.PostThenRefetchCounts | Website/src/components/feed/comments-section.tsx:116-126 | After a post, a successful reload reports one comment more than before for a new top-level comment and the same count for a reply |
| CommentsSection.CountExcludesReplies | Website/src/components/feed/comments-section.tsx:79-80 | The reported count is the number of top-level comments, never more than the stored rows |
| CommentsSection.OneCommentOneReplyCountsOne | Website/src/components/feed/comments-section.tsx:80 | A post with one comment and one reply to it reports a count of one |
| CommentsSection.FetchComments | Website/src/components/feed/comments-section.tsx:33-93 | A failed top-level read leaves the shown comments and reports no count; otherwise the assembled thread is shown and its length reported |
| CommentsSection.RenderReplies | Website/src/components/feed/comments-section.tsx:214-216 | Every reply is rendered, in order, and none of them offers "Reply" |
| CommentsSection.RenderThread | Website/src/components/feed/comments-section.tsx:211-219 | Every comment of the thread is rendered as a top-level entry, and the only entries offering "Reply" are comments of the thread |
| CommentsSection.ReplyOfferedOnTopLevelOnly | Website/src/components/feed/comments-section.tsx:169 | In a rendered two-level thread, "Reply" is offered exactly on top-level comments |
| ProfileHeader.IsOwnProfile | Website/src/components/profile/profile-header.tsx:36 | Definition: the viewer is signed in as the profile's account |
| ProfileHeader.HeaderControls | Website/src/components/profile/profile-header.tsx:116-154 | Edit, settings and logout appear exactly on one's own profile; the follow button only for another user with a non-empty id; message exactly when not one's own profile |
| ProfileHeader.ControlsExclusive | Website/src/components/profile/profile-header.tsx:116-154 | The owner controls and the visitor controls never appear together |
| ProfileHeader.RefreshCounts | Website/src/components/profile/profile-header.tsx:61-75 | A refresh changes only the two follow counters, and only when the read succeeds with a row |
| ProfileHeader.RefreshIdempotent | Website/src/components/profile/profile-header.tsx:61-75 | Applying the same refresh twice equals applying it once |
| ProfileHeader.EditFormInput | Website/src/components/profile/profile-header.tsx:77-91 | The edit form receives the profile's fields with nulls replaced by the empty string and `is_private` as a strict boolean |
| ProfileHeader.MergeProfile | Website/src/components/profile/profile-header.tsx:46-49 | `{...prevUser, ...updatedData}`: every key the saved profile carries replaces the shown one, an absent optional key keeps the shown value, and the counters and verified badge are kept |
| ProfileHeader.HandleSaveProfile | Website/src/components/profile/profile-header.tsx:45-56 | Saving closes the editor, shows the profile merged with the saved one, and navigates exactly when the saved username is non-empty and differs from the one the page opened with |
| ProfileHeader.SaveTwiceSameAsOnce | Website/src/components/profile/profile-header.tsx:45-56 | Saving the same profile twice leaves the header as saving it once |
| ProfileHeader.SaveUnchangedFormNormalises | Website/src/components/profile/profile-header.tsx:45-91 | Saving an untouched edit form does not navigate, but turns null text fields into empty strings |
| ProfileHeader.ShowsPrivateNotice | Website/src/components/profile/profile-header.tsx:163 | Definition: the notice shows for a private account viewed by its owner |
| ProfileHeader.NoticeHiddenFromVisitors | Website/src/components/profile/profile-header.tsx:163 | The private-account notice is never shown to anyone but the owner |
| ProfileHeader.AvatarSource | Website/src/components/profile/profile-header.tsx:107 | The fallback uses the display name if non-empty, else the username if non-empty, else "U", so it is never empty |
| ProfileHeader.AvatarInitial | Website/src/components/profile/profile-header.tsx:107 | The fallback shows one character, the upper-cased first character of that source, never a lower-case ASCII letter |
| ProfileHeader.AvatarIgnoresOtherFields | Website/src/components/profile/profile-header.tsx:107 | Two profiles with the same display name and username show the same fallback initial |
| ProfileHeader.AnonymousAvatarIsU | Website/src/components/profile/profile-header.tsx:107 | A profile with neither display name nor username shows "U" |
| PostCard.FirstWord | Website/src/components/feed/post-card.tsx:64 | The link word is the prefix of the part up to the first space |
| PostCard.ReduceShape | Website/src/components/feed/post-card.tsx:64 | The reduction interleaves the mapped parts with separators: empty before the second element, a space before each later one |
| PostCard.RenderText | Website/src/components/feed/post-card.tsx:64 | Definition: split on `#`, map each part after the first to a link word and the rest of the part, and reduce with separators (its properties are the rows that follow) |
| PostCard.EmptyTextRendersNothing | Website/src/components/feed/post-card.tsx:64 | An empty post text renders no paragraph |
| PostCard.NoHashRendersVerbatim | Website/src/components/feed/post-card.tsx:64 | Text without `#` renders as itself |
| PostCard.RenderShape | Website/src/components/feed/post-card.tsx:64 | The rendering starts with plain text and then alternates separators and hashtag links |
| PostCard.LeadingTextIsPrefix | Website/src/components/feed/post-card.tsx:64 | The leading plain text is the post text up to its first `#` |
| PostCard.LinkWordClean | Website/src/components/feed/post-card.tsx:64 | A hashtag link's word contains neither a space nor a `#` |
| PostCard.OneLinkPerHash | Website/src/components/feed/post-card.tsx:64 | The rendering has exactly one hashtag link per `#` in the text |
| PostCard.LinkStopsAtSpace | Website/src/components/feed/post-card.tsx:64 | The words after a hashtag's first space are dropped: "a#b c" renders as "a", "", "#b" |
| PostCard.OrNumber | Website/src/components/feed/post-card.tsx:70-71 | A missing or zero width/height falls back to the default; the result is zero exactly when both the value and the default are |
| PostCard.OrNumberSettles | Website/src/components/feed/post-card.tsx:70-71 | Applying the same fallback to its own result changes nothing |
| PostCard.MediaPreview | Website/src/components/feed/post-card.tsx:65-75 | A preview is shown exactly when the post has media. It uses the first item's URL, the post text as alt (or "Post image"), and the item's dimensions with fallbacks of 800 and 600 |
| PostCard.PreviewDependsOnFirstItem | Website/src/components/feed/post-card.tsx:65-75 | Two posts with the same text and the same first media item get the same preview, whose alternative text is never empty |

## Left out

- Network, timing and concurrency. All Supabase calls are replaced by reply parameters, and two clients racing between the follow lookup and the insert are not modelled. The `setTimeout` re-reads of the counters, toasts, loading/disabled flags and icons are left out, as is the markup itself.
- Clock values. `created_at` is an abstract natural number, and the `updated_at` timestamps written by the settings panel and the server action are not modelled; relative time display (`formatDistanceToNow`) is left out too.
- Database triggers and the `increment_comment_count` function. The model records only that the increment was requested. The parent's `onCommentCountChange` callback appears only as the count the comments section reports; the follow button's `onFollowChange` callback is not modelled.
- Comment authors, post authors and post counters joined in by the queries. Only the fields the modelled logic reads are kept.
- The profile edit dialog is not part of this model; the profile it returns is an input to `HandleSaveProfile`. Logout and routing are reduced to the navigation target.
- ProfileHeader.HandleSaveProfile: a missing optional field (`email`, `phone`, `website`, `location`) in the saved profile is read as an absent key, so the shown value is kept. A key that is present but holds `undefined` would clear it in JavaScript. Which of the two the edit dialog produces is not part of this model.
- The access rule that decides which posts a visitor may see is implemented in the profile page, which is not part of this model.
- `next/image` behaviour and the zod library itself. Validation is modelled by the rules the schema states.
- Strings.UpperChar: only ASCII letters are upper-cased, whereas JavaScript's `toUpperCase` maps all Unicode letters.
- ProfileHeader.AvatarInitial: upper-cases ASCII letters only (through `Strings.UpperChar`), and takes the first Unicode scalar value, whereas `charAt(0)` takes the first UTF-16 code unit, half of a character outside the Basic Multilingual Plane.
- SettingsForm.SubmitForm: the schema's errors are kept in the form state; whether they are displayed is not modelled, since the form renders no message element for them. The error toast is left out with the other toasts.
- Strings.Split and Strings.Trim: lengths are counted in Unicode scalar values, whereas JavaScript counts UTF-16 code units.
- SettingsForm.Validate: its 1/3/160 limits count Unicode scalar values, not UTF-16 code units, so on text outside the Basic Multilingual Plane the two can disagree either way: a bio of 160 emoji passes here but is 320 units long in the browser, and a two-character username holding one emoji fails here but is 3 units long in the browser.
- CommentsSection.AssembleThread: its own contract gives only the length; the contents are stated by `CommentsSection.ThreadShape`, `CommentsSection.ThreadMembers`, `CommentsSection.ThreadReplies` and `CommentsSection.ThreadContents`. Those lemmas that need it assume only that rows read from the table carry no nested replies. The reply query does not filter by post, and the model keeps that: a reply stored under another post's comment is attached as well.
- FollowButton.ClickKeepsMirror: not claimed for a declined edge, because the component does not mirror it (see `FollowButton.DeclinedEdgeShownAsFollowing`). It is also stated only for a table with at most one row per pair: with two rows for a pair both reads return no data, so the button shows "Follow" over stored edges and a click inserts a third (`FollowButton.DuplicateEdgeInsertsAgain`).
- SettingsActions.UpdateProfile and SettingsActions.UpdateProfileCorrected: the privacy table is a map with one row per account, so a fallback insert for an account that already has a row is modelled as refused with a key violation. A table without a unique key on `user_id` would instead gain a second row, which this model cannot represent.
- FollowButton.ClickKeepsUnique: stated for a successful lookup only. When the lookup fails, the component inserts without knowing whether a row exists, and uniqueness then rests on the database's unique constraint, which is not modelled.

A stated design rule of this application is that `allow_follow_requests` always equals
"visibility is not public". The code keeps this rule only in the privacy panel's
visibility update. The panel's defaults break it (`PrivacySettings.DefaultsNotDerived`),
and so do the settings form and server action (`SettingsForm.FlagIndependentOfVisibility`,
`SettingsActions.SaveCanBreakDerivation`). The model follows the code.

## Findings

| source | as written | input that shows it | evidently intended | confidence | as-written member | corrected member |
|---|---|---|---|---|---|---|
| Website/src/components/settings/actions.ts:46-70 | The privacy row is inserted only when the `update ... eq('user_id', …)` returns an error. An update that matches no row returns no error, so the insert never runs | A signed-in user with a profile row but no `privacy_settings` row submits the form, and every call succeeds. The action returns `{ error: null }` and there is still no privacy row | Create the privacy row when the user has none, as the comment above the insert says | medium: relies on PostgREST reporting a zero-row update as success; not executed | SettingsActions.MissingPrivacyRowNotCreated | SettingsActions.UpdateProfileCorrected |

=== FILE: comments_section.dfy ===
/** The comments of one post: the reply-target toggle, the submit guard with
    trimming, the two-level thread assembled from the comments table, the
    reported count and which rendered comments offer a Reply action. */
module CommentsSection {
  import opened Wrappers
  import opened Types
  import opened Strings

  /** `handleReply(id)`: clicking Reply on the comment already targeted
      clears the target; any other click targets that comment. */
  function HandleReply(target: Option<int>, id: int): (r: Option<int>)
    ensures r.None? <==> target == Some(id)
    ensures r.Some? ==> r.value == id
  {
    if target == Some(id) then None else Some(id)
  }

  /** Clicking Reply twice on one comment restores the original target when
      that target was empty or that same comment; when another comment was
      targeted, the two clicks end with no target. */
  lemma ReplyTwice(target: Option<int>, id: int)
    ensures HandleReply(HandleReply(target, id), id) == target <==> target.None? || target == Some(id)
    ensures HandleReply(HandleReply(target, id), id) != target ==> HandleReply(HandleReply(target, id), id).None?
  {
  }

  /** The input box: its text and the comment it replies to. */
  datatype Composer = Composer(text: string, replyingTo: Option<int>)

  /** The composer after a post. */
  const Cleared := Composer("", None)

  /** What the store answers during a submit: whether the table check and the
      insert succeed, and the id and timestamp the new row gets. */
  datatype SubmitReplies = SubmitReplies(tableOk: bool, insertOk: bool, newId: int, now: nat)

  datatype SubmitOutcome = Ignored | Posted | Failed

  /** The table and composer after a submit, whether the post's comment
      counter was asked to increase, and whether the thread is loaded again
      (`fetchComments` after a post). */
  datatype Submission = Submission(table: seq<Comment>, composer: Composer, incrementRequested: bool,
                                   refetch: bool, outcome: SubmitOutcome)

  /** `handleSubmitComment`. */
  function SubmitComment(table: seq<Comment>, c: Composer, viewer: Option<UserId>, postId: int,
                         replies: SubmitReplies): (s: Submission)
    // blank text or no (or an empty) viewer id: nothing happens
    ensures s.outcome == Ignored <==> Blank(c.text) || !SignedIn(viewer)
    // a comment is posted exactly when the guard passes and both the table
    // check and the insert succeed
    ensures s.outcome == Posted <==> !Blank(c.text) && SignedIn(viewer) && replies.tableOk && replies.insertOk
    // the counter moves exactly when a row was inserted
    ensures s.incrementRequested <==> s.outcome == Posted
    // the thread is reloaded exactly after a post
    ensures s.refetch <==> s.outcome == Posted
    ensures s.outcome != Posted ==> s.table == table && s.composer == c
    ensures s.outcome == Posted ==>
              && |s.table| == |table| + 1 && s.table[..|table|] == table
              && s.composer == Cleared
              && (var row := s.table[|table|];
                  && row.text == Trim(c.text) && row.text != [] && Trimmed(row.text)
                  && row.parentId == c.replyingTo
                  && row.postId == postId && row.userId == viewer.value
                  && row.replies == [])
  {
    TrimEmptyIffBlank(c.text);
    if Trim(c.text) == [] || !SignedIn(viewer) then Submission(table, c, false, false, Ignored)
    else if !replies.tableOk || !replies.insertOk then Submission(table, c, false, false, Failed)
    else
      var row := Comment(replies.newId, postId, viewer.value, Trim(c.text), replies.now, c.replyingTo, []);
      assert (table + [row])[..|table|] == table;
      Submission(table + [row], Cleared, true, true, Posted)
  }

  /** Rows read from the table carry no replies. */
  predicate StoredRows(table: seq<Comment>) {
    forall i :: 0 <= i < |table| ==> table[i].replies == []
  }

  /** Oldest first. */
  predicate SortedByTime(s: seq<Comment>) {
    forall i, j :: 0 <= i < j < |s| ==> s[i].createdAt <= s[j].createdAt
  }

  /** Prefixing an element no later than the head keeps a sequence sorted. */
  lemma SortedCons(x: Comment, s: seq<Comment>)
    requires SortedByTime(s)
    requires s != [] ==> x.createdAt <= s[0].createdAt
    ensures SortedByTime([x] + s)
  {
    var r := [x] + s;
    forall i, j | 0 <= i < j < |r| ensures r[i].createdAt <= r[j].createdAt {
      if i > 0 { assert r[i] == s[i - 1] && r[j] == s[j - 1]; }
      else { assert r[j] == s[j - 1]; }
    }
  }

  /** Places `x` in a sorted sequence. */
  function InsertByTime(x: Comment, s: seq<Comment>): (r: seq<Comment>)
    requires SortedByTime(s)
    ensures SortedByTime(r)
    ensures multiset(r) == multiset(s) + multiset{x}
    ensures |r| == |s| + 1
    ensures r[0] == x || (s != [] && r[0] == s[0])
  {
    if s == [] then [x]
    else if x.createdAt <= s[0].createdAt then
      SortedCons(x, s);
      [x] + s
    else
      var rest := InsertByTime(x, s[1..]);
      assert s == [s[0]] + s[1..];
      SortedCons(s[0], rest);
      [s[0]] + rest
  }

  /** The order the store returns rows in for `order by created_at asc`. */
  function SortByTime(s: seq<Comment>): (r: seq<Comment>)
    ensures SortedByTime(r)
    ensures multiset(r) == multiset(s)
  {
    if s == [] then []
    else
      assert s == [s[0]] + s[1..];
      InsertByTime(s[0], SortByTime(s[1..]))
  }

  /** Every element of a sorted copy comes from the original. */
  lemma SortedElementsFrom(s: seq<Comment>, k: int)
    requires 0 <= k < |SortByTime(s)|
    ensures SortByTime(s)[k] in s
  {
    assert SortByTime(s)[k] in multiset(SortByTime(s));
  }

  /** The top-level comments of a post: no parent. */
  function TopLevel(table: seq<Comment>, postId: int): (r: seq<Comment>)
    ensures forall c :: c in r <==> c in table && c.postId == postId && c.parentId.None?
    ensures multiset(r) <= multiset(table)
  {
    if table == [] then []
    else
      assert table == [table[0]] + table[1..];
      (if table[0].postId == postId && table[0].parentId.None? then [table[0]] else [])
      + TopLevel(table[1..], postId)
  }

  /** The replies to comment `id`: rows whose parent is `id`, from any post
      (the reply query filters on the parent only). */
  function RepliesTo(table: seq<Comment>, id: int): (r: seq<Comment>)
    ensures forall c :: c in r <==> c in table && c.parentId == Some(id)
  {
    if table == [] then []
    else (if table[0].parentId == Some(id) then [table[0]] else []) + RepliesTo(table[1..], id)
  }

  /** One top-level comment with its replies attached; a reply read that
      fails gives no replies. */
  function WithReplies(c: Comment, table: seq<Comment>, failedReads: set<int>): Comment {
    c.(replies := if c.id in failedReads then [] else SortByTime(RepliesTo(table, c.id)))
  }

  /** The thread is two levels deep: top-level comments, each holding
      replies that hold nothing. */
  predicate TwoLevel(thread: seq<Comment>) {
    forall i :: 0 <= i < |thread| ==>
      && thread[i].parentId.None?
      && forall k :: 0 <= k < |thread[i].replies| ==>
           thread[i].replies[k].parentId == Some(thread[i].id) && thread[i].replies[k].replies == []
  }

  /** The thread `fetchComments` assembles: the post's top-level comments,
      oldest first, each with its replies. */
  function AssembleThread(table: seq<Comment>, postId: int, failedReads: set<int>): (thread: seq<Comment>)
    ensures |thread| == |TopLevel(table, postId)|
  {
    var tops := SortByTime(TopLevel(table, postId));
    assert |multiset(tops)| == |multiset(TopLevel(table, postId))|;
    seq(|tops|, i requires 0 <= i < |tops| => WithReplies(tops[i], table, failedReads))
  }

  /** The assembled thread is two levels deep and oldest first at both levels. */
  lemma ThreadShape(table: seq<Comment>, postId: int, failedReads: set<int>)
    requires StoredRows(table)
    ensures var thread := AssembleThread(table, postId, failedReads);
            && TwoLevel(thread)
            && SortedByTime(thread)
            && forall i :: 0 <= i < |thread| ==> SortedByTime(thread[i].replies)
  {
    var tops := SortByTime(TopLevel(table, postId));
    var thread := AssembleThread(table, postId, failedReads);
    forall i | 0 <= i < |thread|
      ensures thread[i].parentId.None?
      ensures forall k :: 0 <= k < |thread[i].replies| ==>
                thread[i].replies[k].parentId == Some(thread[i].id) && thread[i].replies[k].replies == []
    {
      SortedElementsFrom(TopLevel(table, postId), i);
      var rs := RepliesTo(table, tops[i].id);
      forall k | 0 <= k < |thread[i].replies|
        ensures thread[i].replies[k].parentId == Some(thread[i].id) && thread[i].replies[k].replies == []
      {
        SortedElementsFrom(rs, k);
      }
    }
  }

  /** The thread's entries are exactly the post's top-level comments. */
  lemma ThreadMembers(table: seq<Comment>, postId: int, failedReads: set<int>)
    requires StoredRows(table)
    ensures var thread := AssembleThread(table, postId, failedReads);
            && (forall i :: 0 <= i < |thread| ==> thread[i].(replies := []) in TopLevel(table, postId))
            && (forall c :: c in TopLevel(table, postId) ==>
                  exists i :: 0 <= i < |thread| && thread[i].(replies := []) == c)
  {
    var tops := SortByTime(TopLevel(table, postId));
    var thread := AssembleThread(table, postId, failedReads);
    forall i | 0 <= i < |thread| ensures thread[i].(replies := []) in TopLevel(table, postId) {
      SortedElementsFrom(TopLevel(table, postId), i);
      assert tops[i] in table;
      assert thread[i].(replies := []) == tops[i];
    }
    forall c | c in TopLevel(table, postId) ensures exists i :: 0 <= i < |thread| && thread[i].(replies := []) == c {
      assert c in multiset(tops);
      var i :| 0 <= i < |tops| && tops[i] == c;
      assert thread[i].(replies := []) == c;
    }
  }

  /** Each entry holds all its replies, or none when its reply read failed. */
  lemma ThreadReplies(table: seq<Comment>, postId: int, failedReads: set<int>)
    ensures var thread := AssembleThread(table, postId, failedReads);
            && (forall i :: 0 <= i < |thread| && thread[i].id !in failedReads ==>
                  multiset(thread[i].replies) == multiset(RepliesTo(table, thread[i].id)))
            && (forall i :: 0 <= i < |thread| && thread[i].id in failedReads ==> thread[i].replies == [])
  {
    var tops := SortByTime(TopLevel(table, postId));
    var thread := AssembleThread(table, postId, failedReads);
    forall i | 0 <= i < |thread| ensures thread[i] == WithReplies(tops[i], table, failedReads) {
    }
  }

  /** The thread holds exactly the post's top-level comments, and each one
      holds all its replies, or none when their read failed. */
  lemma ThreadContents(table: seq<Comment>, postId: int, failedReads: set<int>)
    requires StoredRows(table)
    ensures var thread := AssembleThread(table, postId, failedReads);
            && (forall i :: 0 <= i < |thread| ==> thread[i].(replies := []) in TopLevel(table, postId))
            && (forall c :: c in TopLevel(table, postId) ==>
                  exists i :: 0 <= i < |thread| && thread[i].(replies := []) == c)
            && (forall i :: 0 <= i < |thread| && thread[i].id !in failedReads ==>
                  multiset(thread[i].replies) == multiset(RepliesTo(table, thread[i].id)))
            && (forall i :: 0 <= i < |thread| && thread[i].id in failedReads ==> thread[i].replies == [])
  {
    ThreadMembers(table, postId, failedReads);
    ThreadReplies(table, postId, failedReads);
  }

  /** Appending a row adds it to the top-level list exactly when it is a
      top-level comment of the post. */
  lemma {:induction false} TopLevelAppend(table: seq<Comment>, row: Comment, postId: int)
    ensures TopLevel(table + [row], postId) ==
              TopLevel(table, postId) + (if row.postId == postId && row.parentId.None? then [row] else [])
  {
    if table == [] {
      assert [] + [row] == [row];
      assert [row][1..] == [];
    } else {
      assert (table + [row])[1..] == table[1..] + [row];
      TopLevelAppend(table[1..], row, postId);
    }
  }

  /** After a post, the reload reports one comment more when the post was a
      new top-level comment, and the same count when it was a reply. */
  lemma PostThenRefetchCounts(table: seq<Comment>, c: Composer, viewer: Option<UserId>, postId: int,
                              replies: SubmitReplies, shown: seq<Comment>)
    requires SubmitComment(table, c, viewer, postId, replies).outcome == Posted
    ensures var s := SubmitComment(table, c, viewer, postId, replies);
            var l := FetchComments(shown, s.table, postId, FetchReplies(true, true, {}));
            s.refetch && l.reportedCount == Some(|TopLevel(table, postId)| + (if c.replyingTo.None? then 1 else 0))
  {
    var s := SubmitComment(table, c, viewer, postId, replies);
    var row := s.table[|table|];
    assert s.table == table + [row];
    ReloadAfterAppend(table, row, postId, shown);
  }

  /** A successful reload after one row was appended reports one more
      comment exactly when the row is a top-level comment of the post. */
  lemma ReloadAfterAppend(table: seq<Comment>, row: Comment, postId: int, shown: seq<Comment>)
    ensures FetchComments(shown, table + [row], postId, FetchReplies(true, true, {})).reportedCount ==
              Some(|TopLevel(table, postId)| + (if row.postId == postId && row.parentId.None? then 1 else 0))
  {
    TopLevelCountAppend(table, row, postId);
  }

  /** Appending a row raises the top-level count by one exactly when it is a
      top-level comment of the post. */
  lemma TopLevelCountAppend(table: seq<Comment>, row: Comment, postId: int)
    ensures |TopLevel(table + [row], postId)| ==
              |TopLevel(table, postId)| + (if row.postId == postId && row.parentId.None? then 1 else 0)
  {
    TopLevelAppend(table, row, postId);
  }

  /** The reported count is the number of top-level comments of the post:
      replies are not counted. */
  lemma CountExcludesReplies(table: seq<Comment>, postId: int, failedReads: set<int>)
    ensures |AssembleThread(table, postId, failedReads)| == |TopLevel(table, postId)|
    ensures |TopLevel(table, postId)| <= |table|
  {
    var t := TopLevel(table, postId);
    assert |multiset(t)| <= |multiset(table)|;
  }

  /** For example, a post with one comment and one reply reports 1. */
  lemma OneCommentOneReplyCountsOne(author: UserId)
    ensures var top := Comment(1, 7, author, "hi", 0, None, []);
            var reply := Comment(2, 7, author, "yo", 1, Some(1), []);
            |AssembleThread([top, reply], 7, {})| == 1
  {
    var top := Comment(1, 7, author, "hi", 0, None, []);
    var reply := Comment(2, 7, author, "yo", 1, Some(1), []);
    assert TopLevel([reply], 7) == [];
    assert [top, reply][1..] == [reply];
    assert TopLevel([top, reply], 7) == [top];
  }

  /** What the store answers while loading: the table check, the top-level
      read, and the comments whose reply read failed. */
  datatype FetchReplies = FetchReplies(tableOk: bool, topOk: bool, failedReads: set<int>)

  /** The comments shown and the count reported to the post (none on error). */
  datatype Loaded = Loaded(comments: seq<Comment>, reportedCount: Option<nat>)

  /** `fetchComments`: on an error the shown comments stay and nothing is
      reported; otherwise the thread replaces them and its length is reported. */
  function FetchComments(shown: seq<Comment>, table: seq<Comment>, postId: int, replies: FetchReplies): (l: Loaded)
    ensures !(replies.tableOk && replies.topOk) ==> l == Loaded(shown, None)
    ensures replies.tableOk && replies.topOk ==>
              && l.comments == AssembleThread(table, postId, replies.failedReads)
              && l.reportedCount == Some(|TopLevel(table, postId)|)
  {
    if !replies.tableOk || !replies.topOk then Loaded(shown, None)
    else
      var thread := AssembleThread(table, postId, replies.failedReads);
      Loaded(thread, Some(|thread|))
  }

  /** One rendered comment and whether it is drawn as a reply. */
  datatype Rendered = Rendered(comment: Comment, isReply: bool)

  /** The Reply action appears on comments not drawn as replies. */
  predicate OffersReply(r: Rendered) {
    !r.isReply
  }

  /** The replies of one comment, in order, none of them offering Reply. */
  function RenderReplies(replies: seq<Comment>): (r: seq<Rendered>)
    ensures |r| == |replies|
    ensures forall k :: 0 <= k < |r| ==> r[k].comment == replies[k]
    ensures forall x :: x in r ==> !OffersReply(x)
  {
    seq(|replies|, k requires 0 <= k < |replies| => Rendered(replies[k], true))
  }

  /** The thread drawn top to bottom: each comment followed by its replies.
      Every comment of the thread is drawn, and only those offer Reply. */
  function RenderThread(thread: seq<Comment>): (r: seq<Rendered>)
    ensures |r| >= |thread|
    ensures forall x :: x in r && OffersReply(x) ==> x.comment in thread
    ensures forall c :: c in thread ==> Rendered(c, false) in r
  {
    if thread == [] then []
    else [Rendered(thread[0], false)] + RenderReplies(thread[0].replies) + RenderThread(thread[1..])
  }

  /** In a two-level thread the Reply action is offered on exactly the
      top-level comments. */
  lemma {:induction false} ReplyOfferedOnTopLevelOnly(thread: seq<Comment>)
    requires TwoLevel(thread)
    ensures forall r :: r in RenderThread(thread) ==> (OffersReply(r) <==> r.comment.parentId.None?)
  {
    if thread != [] {
      assert TwoLevel(thread[1..]) by {
        forall i | 0 <= i < |thread[1..]| ensures thread[1..][i] == thread[i + 1] { }
      }
      ReplyOfferedOnTopLevelOnly(thread[1..]);
      var rs := RenderReplies(thread[0].replies);
      forall r | r in rs ensures !OffersReply(r) && r.comment.parentId.Some? {
        var k :| 0 <= k < |rs| && rs[k] == r;
      }
    }
  }
}

=== FILE: follow_button.dfy ===
/** The follow button: the viewer's follow edge to a target account, read
    from and written to the follows table, and the button's local state.
    One click is one atomic step; every reply of the store is an input. */
module FollowButton {
  import opened Wrappers
  import opened Types

  /** The follows table, in row order. */
  type Table = seq<Follow>

  /** The status of the edge from `a` to `b`, if the table has one (the first
      such row; with `UniquePairs` there is at most one). This is the table's
      own view of an edge; what the component's reads report is `Read`. */
  function Lookup(t: Table, a: UserId, b: UserId): (r: Option<FollowStatus>)
    ensures r.None? <==> forall i :: 0 <= i < |t| ==> !t[i].Links(a, b)
    ensures r.Some? ==> exists i :: 0 <= i < |t| && t[i].Links(a, b) && t[i].status == r.value
  {
    if t == [] then None
    else if t[0].Links(a, b) then Some(t[0].status)
    else
      var r := Lookup(t[1..], a, b);
      assert forall i :: 1 <= i < |t| ==> t[i] == t[1..][i - 1];
      r
  }

  /** No ordered pair has two rows. */
  predicate UniquePairs(t: Table) {
    forall i, j :: 0 <= i < j < |t| ==> !t[j].Links(t[i].follower, t[i].following)
  }

  /** How many rows link `a` to `b`. */
  function Matches(t: Table, a: UserId, b: UserId): (n: nat)
    ensures n == 0 <==> Lookup(t, a, b) == None
    ensures n <= |t|
  {
    if t == [] then 0
    else (if t[0].Links(a, b) then 1 else 0) + Matches(t[1..], a, b)
  }

  /** A read of the edge with `.single()` or `.maybeSingle()`: the row's
      status when exactly one row matches; no data both when none matches and
      when several do (the store then reports an error and no row). */
  function Read(t: Table, a: UserId, b: UserId): (r: Option<FollowStatus>)
    ensures r.Some? <==> Matches(t, a, b) == 1
    ensures r.Some? ==> exists i :: 0 <= i < |t| && t[i].Links(a, b) && t[i].status == r.value
  {
    if Matches(t, a, b) == 1 then Lookup(t, a, b) else None
  }

  /** A duplicate-free table has at most one row per pair. */
  lemma {:induction false} UniqueAtMostOne(t: Table, a: UserId, b: UserId)
    requires UniquePairs(t)
    ensures Matches(t, a, b) <= 1
  {
    if t != [] {
      assert UniquePairs(t[1..]) by {
        forall i, j | 0 <= i < j < |t[1..]| ensures !t[1..][j].Links(t[1..][i].follower, t[1..][i].following) {
          assert t[1..][i] == t[i + 1] && t[1..][j] == t[j + 1];
        }
      }
      UniqueAtMostOne(t[1..], a, b);
      if t[0].Links(a, b) {
        forall k | 0 <= k < |t[1..]| ensures !t[1..][k].Links(a, b) {
          assert t[1..][k] == t[k + 1];
        }
      }
    }
  }

  /** On a duplicate-free table a read reports exactly the stored edge. */
  lemma ReadUnique(t: Table, a: UserId, b: UserId)
    requires UniquePairs(t)
    ensures Read(t, a, b) == Lookup(t, a, b)
  {
    UniqueAtMostOne(t, a, b);
  }

  /** Appending a row adds one match exactly when it links the pair. */
  lemma {:induction false} MatchesAppend(t: Table, row: Follow, a: UserId, b: UserId)
    ensures Matches(t + [row], a, b) == Matches(t, a, b) + (if row.Links(a, b) then 1 else 0)
  {
    if t == [] {
      assert [] + [row] == [row];
    } else {
      assert (t + [row])[1..] == t[1..] + [row];
      MatchesAppend(t[1..], row, a, b);
    }
  }

  /** The table without the edge from `a` to `b` (a delete filtered on both
      columns removes every matching row). */
  function DeleteEdge(t: Table, a: UserId, b: UserId): (r: Table)
    ensures forall row :: row in r <==> row in t && !row.Links(a, b)
    ensures Lookup(r, a, b) == None
    ensures forall x, y :: !(x == a && y == b) ==> Lookup(r, x, y) == Lookup(t, x, y)
  {
    if t == [] then []
    else
      var rest := DeleteEdge(t[1..], a, b);
      if t[0].Links(a, b) then rest else [t[0]] + rest
  }

  /** Deleting an edge keeps a duplicate-free table duplicate-free. */
  lemma {:induction false} DeleteKeepsUnique(t: Table, a: UserId, b: UserId)
    requires UniquePairs(t)
    ensures UniquePairs(DeleteEdge(t, a, b))
  {
    if t != [] {
      var rest := DeleteEdge(t[1..], a, b);
      assert UniquePairs(t[1..]) by {
        forall i, j | 0 <= i < j < |t[1..]| ensures !t[1..][j].Links(t[1..][i].follower, t[1..][i].following) {
          assert t[1..][i] == t[i + 1] && t[1..][j] == t[j + 1];
        }
      }
      DeleteKeepsUnique(t[1..], a, b);
      if !t[0].Links(a, b) {
        forall k | 0 <= k < |rest| ensures !rest[k].Links(t[0].follower, t[0].following) {
          assert rest[k] in rest;
          var j :| 0 <= j < |t[1..]| && t[1..][j] == rest[k];
          assert t[j + 1] == rest[k];
        }
        UniqueCons(t[0], rest);
      }
    }
  }

  /** Prefixing a row whose pair does not occur in a duplicate-free table
      keeps it duplicate-free. */
  lemma UniqueCons(row: Follow, t: Table)
    requires UniquePairs(t)
    requires forall k :: 0 <= k < |t| ==> !t[k].Links(row.follower, row.following)
    ensures UniquePairs([row] + t)
  {
    var u := [row] + t;
    forall i, j | 0 <= i < j < |u| ensures !u[j].Links(u[i].follower, u[i].following) {
      if i > 0 { assert u[i] == t[i - 1] && u[j] == t[j - 1]; }
      else { assert u[j] == t[j - 1]; }
    }
  }

  /** Appending a row changes only the lookup of its own pair, and only when
      that pair had no row yet. */
  lemma {:induction false} LookupAppend(t: Table, row: Follow, a: UserId, b: UserId)
    ensures Lookup(t + [row], a, b) ==
      (if Lookup(t, a, b).Some? then Lookup(t, a, b)
       else if row.Links(a, b) then Some(row.status) else None)
  {
    if t != [] {
      assert (t + [row])[1..] == t[1..] + [row];
      LookupAppend(t[1..], row, a, b);
    }
  }

  /** Appending the edge of a pair the table lacks keeps it duplicate-free. */
  lemma InsertKeepsUnique(t: Table, row: Follow)
    requires UniquePairs(t)
    requires Lookup(t, row.follower, row.following) == None
    ensures UniquePairs(t + [row])
  {
    var u := t + [row];
    forall i, j | 0 <= i < j < |u| ensures !u[j].Links(u[i].follower, u[i].following) {
      if j < |t| { assert u[i] == t[i] && u[j] == t[j]; }
      else { assert u[i] == t[i]; }
    }
  }

  /** The status half of the button's local state: `'none'` or a stored status. */
  datatype ButtonStatus = NoRelation | Stored(status: FollowStatus)

  /** The button's local state `{ isFollowing, status }`. */
  datatype ButtonState = ButtonState(isFollowing: bool, status: ButtonStatus)

  /** The state the button starts in. */
  const Initial := ButtonState(false, NoRelation)

  /** The local state that mirrors a stored edge status. */
  function FromStored(s: FollowStatus): ButtonState {
    ButtonState(s == Accepted, Stored(s))
  }

  /** The button's local state agrees with what a read of the edge from viewer
      to target reports. */
  predicate Mirrors(t: Table, viewer: UserId, target: UserId, s: ButtonState) {
    match Read(t, viewer, target)
    case None => s == Initial
    case Some(st) => s == FromStored(st)
  }

  /** The status read that runs when the button appears: with no viewer id (or an empty one) nothing
      happens; a found row is mirrored; a read that finds no row, or two rows,
      reports no data and changes nothing; a read that throws resets to no
      relation. */
  function CheckFollowStatus(t: Table, s: ButtonState, viewer: Option<UserId>, target: UserId, throws: bool): (r: ButtonState)
    ensures !SignedIn(viewer) ==> r == s
    ensures SignedIn(viewer) && throws ==> r == Initial
    ensures SignedIn(viewer) && !throws && Read(t, viewer.value, target).Some? ==>
      var st := Read(t, viewer.value, target).value;
      (r.isFollowing <==> st == Accepted) && r.status == Stored(st)
    ensures SignedIn(viewer) && !throws && Matches(t, viewer.value, target) != 1 ==> r == s
  {
    if !SignedIn(viewer) then s
    else if throws then Initial
    else
      match Read(t, viewer.value, target)
      case Some(st) => FromStored(st)
      case None => s
  }

  /** Starting from the initial state, a successful status read leaves the
      button mirroring the table: `accepted` exactly when following, and no
      relation when there is no row. */
  lemma CheckEstablishesMirror(t: Table, viewer: UserId, target: UserId)
    requires viewer != ""
    ensures Mirrors(t, viewer, target, CheckFollowStatus(t, Initial, Some(viewer), target, false))
  {
  }

  /** What the store answers during one click: whether the delete, the
      existence read and the insert succeed, and the id a new row gets. */
  datatype StoreReplies = StoreReplies(deleteOk: bool, lookupOk: bool, insertOk: bool, newId: nat)

  /** How a click ended. */
  datatype Outcome =
    | NotLoggedIn
    | SelfFollow
    | Unfollowed
    | UnfollowFailed
    | AlreadyFollowing
    | Inserted(status: FollowStatus)
    | InsertFailed

  /** The table, the button state and the outcome after a click. */
  datatype Click = Click(table: Table, button: ButtonState, outcome: Outcome)

  /** Status a new edge gets: private targets need approval. */
  function RequestedStatus(isPrivate: bool): (st: FollowStatus)
    ensures st == Pending <==> isPrivate
    ensures st == Accepted <==> !isPrivate
  {
    if isPrivate then Pending else Accepted
  }

  /** The state an insert leaves shows which kind of account was followed:
      Pending for a private target, Following for a public one. */
  lemma InsertLabelShowsPrivacy(isPrivate: bool)
    ensures ButtonLabel(FromStored(RequestedStatus(isPrivate))) == (if isPrivate then PendingLabel else FollowingLabel)
    ensures RequestedStatus(isPrivate) != Declined
  {
  }

  /** One click on the button (`handleFollow`). */
  function HandleFollow(t: Table, s: ButtonState, viewer: Option<UserId>, target: UserId,
                        isPrivate: bool, replies: StoreReplies): (c: Click)
    // the guards reject before any store access and change nothing
    ensures c.outcome == NotLoggedIn <==> !SignedIn(viewer)
    ensures c.outcome == SelfFollow <==> SignedIn(viewer) && viewer.value == target
    // a click while following or requested tries to delete the edge, and
    // reports what the delete replied
    ensures SignedIn(viewer) && viewer.value != target && (s.isFollowing || s.status == Stored(Pending)) ==>
              c.outcome == (if replies.deleteOk then Unfollowed else UnfollowFailed)
    // any other click reuses an edge the existence read returned, and else
    // inserts one, reporting what the insert replied
    ensures SignedIn(viewer) && viewer.value != target && !(s.isFollowing || s.status == Stored(Pending)) ==>
              c.outcome == (if replies.lookupOk && Read(t, viewer.value, target).Some? then AlreadyFollowing
                            else if replies.insertOk then Inserted(RequestedStatus(isPrivate))
                            else InsertFailed)
    ensures c.outcome in {NotLoggedIn, SelfFollow, UnfollowFailed, InsertFailed} ==>
              c.table == t && c.button == s
    // only an unfollow or an insert writes the table
    ensures c.table != t ==> c.outcome == Unfollowed || c.outcome.Inserted?
    // an unfollow removes exactly the viewer's edge to the target
    ensures c.outcome == Unfollowed ==>
              && Lookup(c.table, viewer.value, target) == None
              && (forall x, y :: !(x == viewer.value && y == target) ==> Lookup(c.table, x, y) == Lookup(t, x, y))
              && c.button == Initial
    // an existing edge is reported as accepted and nothing is inserted
    ensures c.outcome == AlreadyFollowing ==>
              && Read(t, viewer.value, target).Some?
              && c.table == t
              && c.button == ButtonState(true, Stored(Accepted))
    // an insert adds one edge from viewer to target with the requested status
    ensures c.outcome.Inserted? ==>
              && c.outcome.status == RequestedStatus(isPrivate)
              && |c.table| == |t| + 1 && c.table[..|t|] == t
              && c.table[|t|].Links(viewer.value, target) && c.table[|t|].status == c.outcome.status
              && c.button == FromStored(c.outcome.status)
              && (replies.lookupOk ==> Read(t, viewer.value, target) == None)
  {
    if !SignedIn(viewer) then Click(t, s, NotLoggedIn)
    else if viewer.value == target then Click(t, s, SelfFollow)
    else if s.isFollowing || s.status == Stored(Pending) then
      if replies.deleteOk then Click(DeleteEdge(t, viewer.value, target), Initial, Unfollowed)
      else Click(t, s, UnfollowFailed)
    else
      var status := RequestedStatus(isPrivate);
      var existing := if replies.lookupOk then Read(t, viewer.value, target) else None;
      if existing.Some? then Click(t, ButtonState(true, Stored(Accepted)), AlreadyFollowing)
      else if !replies.insertOk then Click(t, s, InsertFailed)
      else
        var row := Follow(replies.newId, viewer.value, target, status);
        assert (t + [row])[..|t|] == t;
        Click(t + [row], FromStored(status), Inserted(status))
  }

  /** A click never creates a second edge for a pair as long as the existence
      read succeeds: the table stays duplicate-free. */
  lemma ClickKeepsUnique(t: Table, s: ButtonState, viewer: Option<UserId>, target: UserId,
                         isPrivate: bool, replies: StoreReplies)
    requires UniquePairs(t)
    requires replies.lookupOk
    ensures UniquePairs(HandleFollow(t, s, viewer, target, isPrivate, replies).table)
  {
    var c := HandleFollow(t, s, viewer, target, isPrivate, replies);
    if c.outcome.Inserted? {
      ReadUnique(t, viewer.value, target);
      assert c.table == t + [c.table[|t|]];
      InsertKeepsUnique(t, c.table[|t|]);
    } else if c.outcome == Unfollowed {
      DeleteKeepsUnique(t, viewer.value, target);
    }
  }

  /** On a duplicate-free table, a click keeps the button mirroring the
      table, whatever the store replies (a failed existence read included),
      except when the stored edge is `declined`; the table stays
      duplicate-free. */
  lemma ClickKeepsMirror(t: Table, s: ButtonState, viewer: UserId, target: UserId,
                         isPrivate: bool, replies: StoreReplies)
    requires viewer != ""
    requires UniquePairs(t)
    requires Mirrors(t, viewer, target, s)
    requires Read(t, viewer, target) != Some(Declined)
    ensures var c := HandleFollow(t, s, Some(viewer), target, isPrivate, replies);
            UniquePairs(c.table) && Mirrors(c.table, viewer, target, c.button)
  {
    ReadUnique(t, viewer, target);
    var c := HandleFollow(t, s, Some(viewer), target, isPrivate, replies);
    if c.outcome.Inserted? {
      assert Lookup(t, viewer, target) == None;
      assert c.table == t + [c.table[|t|]];
      LookupAppend(t, c.table[|t|], viewer, target);
      InsertKeepsUnique(t, c.table[|t|]);
    } else if c.outcome == Unfollowed {
      DeleteKeepsUnique(t, viewer, target);
    }
    ReadUnique(c.table, viewer, target);
  }

  /** With two rows for the pair, the reads report no edge: the button stays
      at "Follow" and a click inserts yet another row. */
  lemma DuplicateEdgeInsertsAgain(t: Table, viewer: UserId, target: UserId,
                                  isPrivate: bool, replies: StoreReplies)
    requires viewer != "" && viewer != target
    requires Matches(t, viewer, target) >= 2
    requires replies.lookupOk && replies.insertOk
    ensures var s := CheckFollowStatus(t, Initial, Some(viewer), target, false);
            var c := HandleFollow(t, s, Some(viewer), target, isPrivate, replies);
            && s == Initial
            && c.outcome.Inserted?
            && Matches(c.table, viewer, target) == Matches(t, viewer, target) + 1
  {
    var s := CheckFollowStatus(t, Initial, Some(viewer), target, false);
    var c := HandleFollow(t, s, Some(viewer), target, isPrivate, replies);
    assert c.table == t + [c.table[|t|]];
    MatchesAppend(t, c.table[|t|], viewer, target);
  }

  /** A `declined` edge breaks the mirror: the button first shows it as not
      followed, and a click then reports "already following" and shows the
      account as followed while the table still says `declined`. */
  lemma DeclinedEdgeShownAsFollowing(t: Table, viewer: UserId, target: UserId,
                                     isPrivate: bool, replies: StoreReplies)
    requires viewer != "" && viewer != target
    requires Read(t, viewer, target) == Some(Declined)
    requires replies.lookupOk
    ensures var s := CheckFollowStatus(t, Initial, Some(viewer), target, false);
            var c := HandleFollow(t, s, Some(viewer), target, isPrivate, replies);
            && !s.isFollowing
            && c.outcome == AlreadyFollowing
            && c.button.isFollowing
            && !Mirrors(c.table, viewer, target, c.button)
  {
  }

  /** Deleting an edge the table lacks changes nothing. */
  lemma {:induction false} DeleteAbsentEdge(t: Table, a: UserId, b: UserId)
    requires Lookup(t, a, b) == None
    ensures DeleteEdge(t, a, b) == t
  {
    if t != [] {
      DeleteAbsentEdge(t[1..], a, b);
    }
  }

  /** Deleting from an appended table deletes from each part. */
  lemma {:induction false} DeleteAppend(t: Table, row: Follow, a: UserId, b: UserId)
    ensures DeleteEdge(t + [row], a, b) == DeleteEdge(t, a, b) + DeleteEdge([row], a, b)
  {
    if t == [] {
      assert [] + [row] == [row];
    } else {
      assert (t + [row])[1..] == t[1..] + [row];
      DeleteAppend(t[1..], row, a, b);
    }
  }

  /** Follow then click again: with no edge at first and every store call
      succeeding, the second click undoes the first, restoring both the table
      and the button (unfollow and cancel-request are the same action). */
  lemma FollowThenUnfollow(t: Table, viewer: UserId, target: UserId,
                           isPrivate: bool, replies: StoreReplies)
    requires viewer != "" && viewer != target
    requires Lookup(t, viewer, target) == None
    requires replies.deleteOk && replies.lookupOk && replies.insertOk
    ensures var c1 := HandleFollow(t, Initial, Some(viewer), target, isPrivate, replies);
            var c2 := HandleFollow(c1.table, c1.button, Some(viewer), target, isPrivate, replies);
            c1.outcome.Inserted? && c2.outcome == Unfollowed && c2.table == t && c2.button == Initial
  {
    assert Matches(t, viewer, target) == 0;
    var c1 := HandleFollow(t, Initial, Some(viewer), target, isPrivate, replies);
    var row := c1.table[|t|];
    assert c1.table == t + [row];
    DeleteAppend(t, row, viewer, target);
    DeleteAbsentEdge(t, viewer, target);
    assert DeleteEdge([row], viewer, target) == [];
  }

  /** The label the button shows. */
  datatype Label = PendingLabel | FollowingLabel | FollowLabel

  /** The label: Pending, then Following, then Follow, in that priority. */
  function ButtonLabel(s: ButtonState): (l: Label)
    // a state that mirrors a stored edge names its status; a declined edge
    // and the initial state both offer to follow
    ensures s == FromStored(Pending) ==> l == PendingLabel
    ensures s == FromStored(Accepted) ==> l == FollowingLabel
    ensures s == FromStored(Declined) || s == Initial ==> l == FollowLabel
  {
    if s.status == Stored(Pending) then PendingLabel
    else if s.isFollowing then FollowingLabel
    else FollowLabel
  }

  /** The visual style of the button. */
  datatype Variant = Secondary | Outline | Default

  /** The style, decided in the same order as the label. */
  function ButtonVariant(s: ButtonState): (v: Variant)
    ensures s == FromStored(Pending) ==> v == Secondary
    ensures s == FromStored(Accepted) ==> v == Outline
    ensures s == FromStored(Declined) || s == Initial ==> v == Default
  {
    if s.status == Stored(Pending) then Secondary
    else if s.isFollowing then Outline
    else Default
  }

  /** Each label comes with its own style: Pending is secondary, Following is
      outline and Follow is default, and a pending status outranks
      `isFollowing`. */
  lemma VariantFollowsLabel(s: ButtonState)
    ensures ButtonLabel(s) == PendingLabel <==> ButtonVariant(s) == Secondary
    ensures ButtonLabel(s) == FollowingLabel <==> ButtonVariant(s) == Outline
    ensures ButtonLabel(s) == FollowLabel <==> ButtonVariant(s) == Default
    ensures s.status == Stored(Pending) ==> ButtonLabel(s) == PendingLabel
  {
  }

  /** The label announces what a click does: under Pending or Following a
      click removes the edge, under Follow it tries to create one. */
  lemma LabelPredictsClick(t: Table, s: ButtonState, viewer: UserId, target: UserId,
                           isPrivate: bool, replies: StoreReplies)
    requires viewer != "" && viewer != target
    ensures var c := HandleFollow(t, s, Some(viewer), target, isPrivate, replies);
            ButtonLabel(s) != FollowLabel <==> c.outcome in {Unfollowed, UnfollowFailed}
  {
  }

  /** The button renders only for a logged-in viewer looking at someone else. */
  predicate ShouldRender(viewer: Option<UserId>, target: UserId) {
    SignedIn(viewer) && viewer.value != target
  }

  /** Whenever the button would not render, the click guards would reject it
      before touching the store. */
  lemma RenderGuardMatchesClickGuards(t: Table, s: ButtonState, viewer: Option<UserId>, target: UserId,
                                      isPrivate: bool, replies: StoreReplies)
    ensures var c := HandleFollow(t, s, viewer, target, isPrivate, replies);
            !ShouldRender(viewer, target) <==> c.outcome in {NotLoggedIn, SelfFollow}
  {
  }
}

=== FILE: post_card.dfy ===
/** The post card's text and media rendering: the post text split at `#`
    into plain text and hashtag links, and the single media preview. */
module PostCard {
  import opened Wrappers
  import opened Types
  import opened Strings

  /** One rendered piece of the post text. */
  datatype Segment = Plain(text: string) | Hashtag(tag: string)

  /** The word of a part that a hashtag link shows: the part up to its first
      space (`part.split(' ')[0]`). */
  function FirstWord(part: string): (w: string)
    ensures w <= part && ' ' !in w
    ensures |w| < |part| ==> part[|w|] == ' '
  {
    Split(part, ' ')[0]
  }

  /** Each part after a split on `#`, before joining: the first part as plain
      text, every later one as a link to `#` and its first word. */
  function MapParts(parts: seq<string>): (m: seq<Segment>)
    requires |parts| > 0
    ensures |m| == |parts|
  {
    seq(|parts|, i requires 0 <= i < |parts| =>
      if i == 0 then Plain(parts[0]) else Hashtag("#" + FirstWord(parts[i])))
  }

  /** The separator placed before element `i` of the mapped parts: none
      before the first link, a space before each later one. */
  function Separator(i: nat): string {
    if i > 1 then " " else ""
  }

  /** The `reduce` with no initial value: each later element is appended
      after its separator, `[prev, sep, curr]`, flattened. */
  function Reduce(m: seq<Segment>): seq<Segment>
    requires |m| > 0
  {
    if |m| == 1 then m
    else Reduce(m[..|m| - 1]) + [Plain(Separator(|m| - 1)), m[|m| - 1]]
  }

  /** The shape of a reduction: the first element, then for every later
      element its separator followed by the element. */
  lemma {:induction false} ReduceShape(m: seq<Segment>)
    requires |m| > 0
    ensures |Reduce(m)| == 2 * |m| - 1
    ensures Reduce(m)[0] == m[0]
    ensures forall k :: 1 <= k < |m| ==>
              Reduce(m)[2 * k - 1] == Plain(Separator(k)) && Reduce(m)[2 * k] == m[k]
  {
    if |m| > 1 {
      var init := m[..|m| - 1];
      ReduceShape(init);
      forall k | 1 <= k < |m|
        ensures Reduce(m)[2 * k - 1] == Plain(Separator(k)) && Reduce(m)[2 * k] == m[k]
      {
        if k < |m| - 1 {
          assert Reduce(m)[2 * k - 1] == Reduce(init)[2 * k - 1];
          assert Reduce(m)[2 * k] == Reduce(init)[2 * k];
        }
      }
    }
  }

  /** The paragraph under a post: nothing for empty text, otherwise the
      reduced segments of the text split at `#`. */
  function RenderText(text: string): seq<Segment> {
    if text == [] then [] else Reduce(MapParts(Split(text, '#')))
  }

  /** Empty text renders nothing. */
  lemma EmptyTextRendersNothing()
    ensures RenderText("") == []
  {
  }

  /** Text without `#` renders unchanged as a single plain segment. */
  lemma NoHashRendersVerbatim(text: string)
    requires text != [] && '#' !in text
    ensures RenderText(text) == [Plain(text)]
  {
    var parts := Split(text, '#');
    JoinSplit(text, '#');
    assert |parts| == 1 by { NoOccurrenceCountsZero(text, '#'); }
  }

  /** A character that does not occur is counted zero times. */
  lemma {:induction false} NoOccurrenceCountsZero(s: string, d: char)
    requires d !in s
    ensures Count(s, d) == 0
  {
    if s != [] {
      assert d !in s[1..] by { assert forall k :: 0 <= k < |s[1..]| ==> s[1..][k] == s[k + 1]; }
      NoOccurrenceCountsZero(s[1..], d);
    }
  }

  /** A character missing from a string is missing from its prefixes. */
  lemma PrefixLacks(w: string, p: string, c: char)
    requires w <= p && c !in p
    ensures c !in w
  {
  }

  /** Each link's word contains neither a space nor a `#`. */
  lemma LinkWordClean(part: string)
    requires '#' !in part
    ensures ' ' !in FirstWord(part) && '#' !in FirstWord(part)
  {
    PrefixLacks(FirstWord(part), part, '#');
  }

  /** The rendered text, for non-empty text: the text before the first `#`
      verbatim, then for each `#` in the text a separator (empty before the
      first link, a space before each later one) and a link to `#` followed by
      the first word of the text after that `#`. */
  lemma RenderShape(text: string)
    requires text != []
    ensures var r := RenderText(text);
            var parts := Split(text, '#');
            && |r| == 2 * Count(text, '#') + 1
            && r[0] == Plain(parts[0])
            && (forall k :: 1 <= k <= Count(text, '#') ==>
                 r[2 * k - 1] == Plain(Separator(k)) && r[2 * k] == Hashtag("#" + FirstWord(parts[k])))
  {
    var parts := Split(text, '#');
    var m := MapParts(parts);
    ReduceShape(m);
  }

  /** The leading plain segment is the text up to the first `#`. */
  lemma LeadingTextIsPrefix(text: string)
    requires text != []
    ensures var lead := Split(text, '#')[0];
            && RenderText(text)[0] == Plain(lead)
            && lead <= text && '#' !in lead
            && (|lead| < |text| ==> text[|lead|] == '#')
  {
    RenderShape(text);
  }

  /** Number of hashtag links among some segments. */
  function LinkCount(r: seq<Segment>): nat {
    if r == [] then 0 else (if r[0].Hashtag? then 1 else 0) + LinkCount(r[1..])
  }

  /** Counting links splits over concatenation. */
  lemma {:induction false} LinkCountAppend(a: seq<Segment>, b: seq<Segment>)
    ensures LinkCount(a + b) == LinkCount(a) + LinkCount(b)
  {
    if a == [] {
      assert a + b == b;
    } else {
      assert (a + b)[0] == a[0];
      assert (a + b)[1..] == a[1..] + b;
      LinkCountAppend(a[1..], b);
    }
  }

  /** Reducing adds only plain separators, so it keeps the link count. */
  lemma {:induction false} ReduceKeepsLinks(m: seq<Segment>)
    requires |m| > 0
    ensures LinkCount(Reduce(m)) == LinkCount(m)
  {
    if |m| > 1 {
      var init := m[..|m| - 1];
      ReduceKeepsLinks(init);
      LinkCountAppend(Reduce(init), [Plain(Separator(|m| - 1)), m[|m| - 1]]);
      assert m == init + [m[|m| - 1]];
      LinkCountAppend(init, [m[|m| - 1]]);
      assert [Plain(Separator(|m| - 1)), m[|m| - 1]][1..] == [m[|m| - 1]];
    }
  }

  /** The mapped parts hold a link for every part but the first. */
  lemma {:induction false} MappedLinks(parts: seq<string>)
    requires |parts| > 0
    ensures LinkCount(MapParts(parts)) == |parts| - 1
  {
    var m := MapParts(parts);
    if |parts| > 1 {
      var init := parts[..|parts| - 1];
      MappedLinks(init);
      assert m == MapParts(init) + [m[|m| - 1]];
      LinkCountAppend(MapParts(init), [m[|m| - 1]]);
    }
  }

  /** There is one hashtag link per `#` in the text. */
  lemma OneLinkPerHash(text: string)
    ensures LinkCount(RenderText(text)) == Count(text, '#')
  {
    if text != [] {
      var parts := Split(text, '#');
      ReduceKeepsLinks(MapParts(parts));
      MappedLinks(parts);
    }
  }

  /** A hashtag link drops the words after the first space of its part:
      the text "a#b c" renders as "a" and a link to "#b". */
  lemma LinkStopsAtSpace()
    ensures RenderText("a#b c") == [Plain("a"), Plain(""), Hashtag("#b")]
  {
    assert "c"[1..] == "" && " c"[1..] == "c" && "b c"[1..] == " c";
    assert "#b c"[1..] == "b c" && "a#b c"[1..] == "#b c";
    assert Split("", ' ') == [""] && Split("", '#') == [""];
    assert ['c'] + "" == "c" && ['b'] + "" == "b" && ['a'] + "" == "a";
    assert [' '] + "c" == " c" && ['b'] + " c" == "b c";
    assert [""][1..] == [] && ["c"][1..] == [] && [" c"][1..] == [] && ["", "c"][1..] == ["c"];
    assert ["b c"][1..] == [] && ["", "b c"][1..] == ["b c"];
    assert Split("c", ' ') == ["c"];
    assert Split(" c", ' ') == ["", "c"];
    assert Split("b c", ' ') == ["b", "c"];
    assert Split("c", '#') == ["c"];
    assert Split(" c", '#') == [" c"];
    assert Split("b c", '#') == ["b c"];
    assert Split("#b c", '#') == ["", "b c"];
    assert Split("a#b c", '#') == ["a", "b c"];
    var m := MapParts(["a", "b c"]);
    assert FirstWord("b c") == "b";
    assert "#" + "b" == "#b";
    assert m[0] == Plain("a") && m[1] == Hashtag("#b");
    assert m == [Plain("a"), Hashtag("#b")];
    assert m[..1] == [Plain("a")];
  }

  /** The image the card shows. */
  datatype Preview = Preview(url: string, alt: string, width: int, height: int)

  const DefaultWidth := 800
  const DefaultHeight := 600

  /** JavaScript `x || fallback` on an optional number: the fallback when the
      value is missing or zero. */
  function OrNumber(x: Option<int>, fallback: int): (r: int)
    ensures x.Some? && x.value != 0 ==> r == x.value
    ensures x.None? || x.value == 0 ==> r == fallback
    // the result is zero only when both the value and the fallback are
    ensures r == 0 <==> (x.None? || x.value == 0) && fallback == 0
  {
    if x.Some? && x.value != 0 then x.value else fallback
  }

  /** Applying the same fallback to a result again changes nothing. */
  lemma OrNumberSettles(x: Option<int>, fallback: int)
    ensures OrNumber(Some(OrNumber(x, fallback)), fallback) == OrNumber(x, fallback)
  {
  }

  /** Only the first media item is shown, sized 800 by 600 unless it says
      otherwise; its alternative text is the post text or "Post image". */
  function MediaPreview(post: Post): (r: Option<Preview>)
    ensures r.Some? <==> |post.media| > 0
    ensures r.Some? ==>
              && r.value.url == post.media[0].url
              && r.value.width == OrNumber(post.media[0].width, DefaultWidth)
              && r.value.height == OrNumber(post.media[0].height, DefaultHeight)
              && r.value.width != 0 && r.value.height != 0
              && r.value.alt == (if post.text == "" then "Post image" else post.text)
  {
    if |post.media| == 0 then None
    else
      var first := post.media[0];
      Some(Preview(first.url, if post.text != "" then post.text else "Post image",
                   OrNumber(first.width, DefaultWidth), OrNumber(first.height, DefaultHeight)))
  }

  /** The preview depends on the post's text and first media item only, and
      its alternative text is never empty. */
  lemma PreviewDependsOnFirstItem(p: Post, q: Post)
    requires p.text == q.text && |p.media| > 0 && |q.media| > 0 && p.media[0] == q.media[0]
    ensures MediaPreview(p) == MediaPreview(q)
    ensures MediaPreview(p).value.alt != ""
  {
  }
}

=== FILE: privacy_settings.dfy ===
/** The privacy settings panel: the settings record, the single-key update
    rule (with the follow-request flag derived from profile visibility), the
    initial fetch and the visibility descriptions. */
module PrivacySettings {
  import opened Wrappers
  import opened Types
  import opened Strings

  /** Who may message or mention the account. */
  datatype Audience = Everyone | FollowersOnly | NoOne

  /** The account's privacy settings. */
  datatype PrivacySettings = PrivacySettings(
    profileVisibility: Visibility,
    postVisibility: Visibility,
    showOnlineStatus: bool,
    allowFollowRequests: bool,
    allowDirectMessages: Audience,
    showFollowers: bool,
    showFollowing: bool,
    allowTagging: bool,
    allowMentions: Audience)

  /** The settings shown before anything is fetched. */
  const Defaults := PrivacySettings(Public, Public, true, true, Everyone, true, true, true, Everyone)

  /** The keys of the settings record. */
  datatype Field =
    | ProfileVisibilityKey | PostVisibilityKey | ShowOnlineStatusKey | AllowFollowRequestsKey
    | AllowDirectMessagesKey | ShowFollowersKey | ShowFollowingKey | AllowTaggingKey | AllowMentionsKey

  /** One key with its new value: the arguments of an update. */
  datatype Change =
    | SetProfileVisibility(visibility: Visibility)
    | SetPostVisibility(visibility: Visibility)
    | SetShowOnlineStatus(flag: bool)
    | SetAllowFollowRequests(flag: bool)
    | SetAllowDirectMessages(audience: Audience)
    | SetShowFollowers(flag: bool)
    | SetShowFollowing(flag: bool)
    | SetAllowTagging(flag: bool)
    | SetAllowMentions(audience: Audience)

  /** The key a change writes. */
  function KeyOf(c: Change): Field {
    match c
    case SetProfileVisibility(_) => ProfileVisibilityKey
    case SetPostVisibility(_) => PostVisibilityKey
    case SetShowOnlineStatus(_) => ShowOnlineStatusKey
    case SetAllowFollowRequests(_) => AllowFollowRequestsKey
    case SetAllowDirectMessages(_) => AllowDirectMessagesKey
    case SetShowFollowers(_) => ShowFollowersKey
    case SetShowFollowing(_) => ShowFollowingKey
    case SetAllowTagging(_) => AllowTaggingKey
    case SetAllowMentions(_) => AllowMentionsKey
  }

  /** `s` and `u` hold the same value under key `f`. */
  predicate SameAt(s: PrivacySettings, u: PrivacySettings, f: Field) {
    match f
    case ProfileVisibilityKey => s.profileVisibility == u.profileVisibility
    case PostVisibilityKey => s.postVisibility == u.postVisibility
    case ShowOnlineStatusKey => s.showOnlineStatus == u.showOnlineStatus
    case AllowFollowRequestsKey => s.allowFollowRequests == u.allowFollowRequests
    case AllowDirectMessagesKey => s.allowDirectMessages == u.allowDirectMessages
    case ShowFollowersKey => s.showFollowers == u.showFollowers
    case ShowFollowingKey => s.showFollowing == u.showFollowing
    case AllowTaggingKey => s.allowTagging == u.allowTagging
    case AllowMentionsKey => s.allowMentions == u.allowMentions
  }

  /** `s` holds the value `c` writes. */
  predicate Holds(s: PrivacySettings, c: Change) {
    match c
    case SetProfileVisibility(v) => s.profileVisibility == v
    case SetPostVisibility(v) => s.postVisibility == v
    case SetShowOnlineStatus(b) => s.showOnlineStatus == b
    case SetAllowFollowRequests(b) => s.allowFollowRequests == b
    case SetAllowDirectMessages(a) => s.allowDirectMessages == a
    case SetShowFollowers(b) => s.showFollowers == b
    case SetShowFollowing(b) => s.showFollowing == b
    case SetAllowTagging(b) => s.allowTagging == b
    case SetAllowMentions(a) => s.allowMentions == a
  }

  /** `{ ...s, [key]: value }` for one change. */
  function Put(s: PrivacySettings, c: Change): (u: PrivacySettings)
    ensures Holds(u, c)
    ensures forall f :: f != KeyOf(c) ==> SameAt(s, u, f)
  {
    match c
    case SetProfileVisibility(v) => s.(profileVisibility := v)
    case SetPostVisibility(v) => s.(postVisibility := v)
    case SetShowOnlineStatus(b) => s.(showOnlineStatus := b)
    case SetAllowFollowRequests(b) => s.(allowFollowRequests := b)
    case SetAllowDirectMessages(a) => s.(allowDirectMessages := a)
    case SetShowFollowers(b) => s.(showFollowers := b)
    case SetShowFollowing(b) => s.(showFollowing := b)
    case SetAllowTagging(b) => s.(allowTagging := b)
    case SetAllowMentions(a) => s.(allowMentions := a)
  }

  /** `{ ...s, ...patch }`: the changes of a patch, applied in order. */
  function Merge(s: PrivacySettings, patch: seq<Change>): PrivacySettings
    decreases |patch|
  {
    if patch == [] then s else Merge(Put(s, patch[0]), patch[1..])
  }

  /** The partial record an update sends and merges: the key itself and, for
      a profile-visibility change, the derived follow-request flag. */
  function Payload(c: Change): seq<Change> {
    if c.SetProfileVisibility? then [c, SetAllowFollowRequests(RequiresApproval(c.visibility))]
    else [c]
  }

  /** The outcome of an update: what was sent to the store, the local
      settings afterwards, and whether the upsert succeeded. */
  datatype Update = Update(sent: seq<Change>, settings: PrivacySettings, saved: bool)

  /** `updateSetting(key, value)`: the patch is sent in one upsert; the local
      settings take the patch only when the upsert succeeds. */
  function UpdateSetting(s: PrivacySettings, c: Change, upsertOk: bool): (u: Update)
    ensures c in u.sent
    ensures u.saved == upsertOk
    ensures !upsertOk ==> u.settings == s
    // what is sent and what is kept locally agree
    ensures upsertOk ==> forall d :: d in u.sent ==> Holds(u.settings, d)
    // a visibility change also sends the derived flag
    ensures c.SetProfileVisibility? ==>
              SetAllowFollowRequests(c.visibility != Public) in u.sent
    // and the patch holds nothing else
    ensures forall d :: d in u.sent ==>
              d == c || (c.SetProfileVisibility? && d == SetAllowFollowRequests(c.visibility != Public))
    // a saved patch is merged into the local settings
    ensures upsertOk ==> u.settings == Merge(s, u.sent)
    // and nothing else is touched
    ensures forall f :: f != KeyOf(c) && !(c.SetProfileVisibility? && f == AllowFollowRequestsKey) ==>
              SameAt(s, u.settings, f)
  {
    var patch := Payload(c);
    if !upsertOk then Update(patch, s, false)
    else if c.SetProfileVisibility? then
      var flag := SetAllowFollowRequests(RequiresApproval(c.visibility));
      var once := Put(s, c);
      var twice := Put(once, flag);
      assert patch[1..] == [flag];
      assert Merge(once, [flag]) == Merge(twice, []);
      assert SameAt(once, twice, ProfileVisibilityKey);
      Update(patch, twice, true)
    else
      assert Merge(Put(s, c), []) == Put(s, c);
      Update(patch, Put(s, c), true)
  }

  /** The flag agrees with the visibility in these settings. */
  predicate Derived(s: PrivacySettings) {
    FollowRequestsDerived(s.profileVisibility, s.allowFollowRequests)
  }

  /** A saved visibility change makes the flag agree: public takes no
      requests, followers and private take them. */
  lemma VisibilityUpdateDerivesFlag(s: PrivacySettings, v: Visibility)
    ensures var u := UpdateSetting(s, SetProfileVisibility(v), true);
            u.settings.profileVisibility == v && Derived(u.settings)
            && (u.settings.allowFollowRequests <==> v in {Followers, Private})
  {
  }

  /** Once the flag agrees, any update other than a direct write of the flag
      keeps it agreeing, saved or not. */
  lemma UpdateKeepsDerived(s: PrivacySettings, c: Change, upsertOk: bool)
    requires Derived(s)
    requires !c.SetAllowFollowRequests?
    ensures Derived(UpdateSetting(s, c, upsertOk).settings)
  {
    var u := UpdateSetting(s, c, upsertOk);
    if !c.SetProfileVisibility? {
      assert SameAt(s, u.settings, ProfileVisibilityKey);
      assert SameAt(s, u.settings, AllowFollowRequestsKey);
    }
  }

  /** The initial settings do not satisfy the rule: they are public yet
      allow follow requests. */
  lemma DefaultsNotDerived()
    ensures !Derived(Defaults)
  {
  }

  /** The error code the store gives when the account has no settings row. */
  const NotFoundCode := "PGRST116"

  /** The store's answer to the settings read: a row and/or an error code. */
  datatype FetchReply = FetchReply(data: Option<PrivacySettings>, errorCode: Option<string>)

  /** The local settings after the fetch, and whether an error was reported. */
  datatype Fetched = Fetched(settings: PrivacySettings, failed: bool)

  /** `fetchPrivacySettings`: "not found" is not an error; a returned row
      replaces the settings wholesale; any other error keeps them. */
  function FetchPrivacySettings(s: PrivacySettings, reply: FetchReply): (f: Fetched)
    ensures f.failed <==> reply.errorCode.Some? && reply.errorCode.value != NotFoundCode
    ensures !f.failed && reply.data.Some? ==> f.settings == reply.data.value
    ensures f.failed || reply.data.None? ==> f.settings == s
  {
    if reply.errorCode.Some? && reply.errorCode.value != NotFoundCode then Fetched(s, true)
    else if reply.data.Some? then Fetched(reply.data.value, false)
    else Fetched(s, false)
  }

  /** Loading the same answer a second time changes nothing more. */
  lemma FetchTwiceSameAsOnce(s: PrivacySettings, reply: FetchReply)
    ensures var f := FetchPrivacySettings(s, reply);
            FetchPrivacySettings(f.settings, reply) == f
  {
  }

  /** An account without a settings row keeps the initial settings, without
      an error, whether the store says "not found" or returns nothing, so the
      flag rule does not hold for what is shown. */
  lemma FetchWithoutRowKeepsDefaults(errorCode: Option<string>)
    requires errorCode.None? || errorCode == Some(NotFoundCode)
    ensures var f := FetchPrivacySettings(Defaults, FetchReply(None, errorCode));
            f == Fetched(Defaults, false) && !Derived(f.settings)
  {
  }

  /** Sentence shown under a visibility choice. */
  const PublicDescription := "Visible to everyone. Follows are instant."
  const ApprovalSuffix := "Follows require approval."
  const FollowersDescription := "Visible to your followers only. " + ApprovalSuffix
  const PrivateDescription := "Visible to you only. " + ApprovalSuffix

  /** `getVisibilityDescription` on the raw visibility string. */
  function VisibilityDescription(name: string): string {
    if name == "public" then PublicDescription
    else if name == "followers" then FollowersDescription
    else if name == "private" then PrivateDescription
    else ""
  }

  /** The description of a visibility promises approval exactly when the
      update rule turns follow requests on for it, and a string that is not
      a visibility gets no description. */
  lemma DescriptionMatchesDerivation(name: string)
    ensures VisibilityDescription(name) == "" <==> ParseVisibility(name).None?
    ensures ParseVisibility(name).Some? ==>
              var v := ParseVisibility(name).value;
              var flag := UpdateSetting(Defaults, SetProfileVisibility(v), true).settings.allowFollowRequests;
              (EndsWith(VisibilityDescription(name), ApprovalSuffix) <==> flag)
  {
    if ParseVisibility(name).Some? {
      VisibilityUpdateDerivesFlag(Defaults, ParseVisibility(name).value);
    }
    DescriptionsPromiseApproval();
  }

  /** Which of the three sentences end by promising approval. */
  lemma DescriptionsPromiseApproval()
    ensures !EndsWith(PublicDescription, ApprovalSuffix)
    ensures EndsWith(FollowersDescription, ApprovalSuffix)
    ensures EndsWith(PrivateDescription, ApprovalSuffix)
  {
    assert PublicDescription[|PublicDescription| - 2] == 't';
    assert ApprovalSuffix[|ApprovalSuffix| - 2] == 'l';
    assert FollowersDescription[|FollowersDescription| - |ApprovalSuffix|..] == ApprovalSuffix;
    assert PrivateDescription[|PrivateDescription| - |ApprovalSuffix|..] == ApprovalSuffix;
  }
}

=== FILE: profile_header.dfy ===
/** The profile header's view model: who owns the profile, which controls
    show, the count refresh, saving an edit, the edit form's input, the
    private-account notice and the avatar initial. */
module ProfileHeader {
  import opened Wrappers
  import opened Types
  import opened Strings
  import FollowButton

  /** The profile the header shows; text columns may be null. */
  datatype Profile = Profile(
    id: UserId,
    displayName: Option<string>,
    username: Option<string>,
    avatarUrl: Option<string>,
    bio: Option<string>,
    email: Option<string>,
    phone: Option<string>,
    website: Option<string>,
    location: Option<string>,
    postsCount: int,
    followersCount: int,
    followingCount: int,
    isVerified: bool,
    isPrivate: Option<bool>)

  /** The viewer owns the profile; an anonymous viewer owns none. */
  predicate IsOwnProfile(viewer: Option<UserId>, p: Profile) {
    viewer == Some(p.id)
  }

  /** The controls next to the name. */
  datatype Controls = Controls(edit: bool, settings: bool, logout: bool, followButton: bool, message: bool)

  /** Owners get edit, settings and logout; everyone else gets the follow
      button (which itself draws only for a logged-in viewer) and message. */
  function HeaderControls(viewer: Option<UserId>, p: Profile): (c: Controls)
    ensures c.edit == c.settings == c.logout == IsOwnProfile(viewer, p)
    ensures c.followButton <==> SignedIn(viewer) && viewer.value != p.id
    ensures c.message <==> !IsOwnProfile(viewer, p)
  {
    var own := IsOwnProfile(viewer, p);
    Controls(own, own, own, !own && FollowButton.ShouldRender(viewer, p.id), !own)
  }

  /** The follow button and the owner's controls never show together, and
      one of the two groups always shows to a logged-in viewer. */
  lemma ControlsExclusive(viewer: Option<UserId>, p: Profile)
    ensures var c := HeaderControls(viewer, p);
            !(c.followButton && c.edit) && (SignedIn(viewer) ==> c.followButton || c.edit)
  {
  }

  /** The counts read back from the store, each possibly null. */
  datatype CountsRow = CountsRow(followerCount: Option<int>, followingCount: Option<int>)

  /** `refreshCounts`: on success each count takes the fetched value unless it
      is null; on an error or no data nothing changes. */
  function RefreshCounts(p: Profile, failed: bool, data: Option<CountsRow>): (r: Profile)
    ensures failed || data.None? ==> r == p
    ensures r == p.(followersCount := r.followersCount, followingCount := r.followingCount)
    ensures !failed && data.Some? ==>
              && r.followersCount == data.value.followerCount.GetOr(p.followersCount)
              && r.followingCount == data.value.followingCount.GetOr(p.followingCount)
  {
    if failed || data.None? then p
    else p.(followersCount := data.value.followerCount.GetOr(p.followersCount),
            followingCount := data.value.followingCount.GetOr(p.followingCount))
  }

  /** A refresh that returns the current counts changes nothing, so
      refreshing twice with the same answer is the same as once. */
  lemma RefreshIdempotent(p: Profile, failed: bool, data: Option<CountsRow>)
    ensures RefreshCounts(RefreshCounts(p, failed, data), failed, data) == RefreshCounts(p, failed, data)
  {
  }

  /** The record the edit form receives: null text becomes empty text, a
      missing privacy flag becomes false, timestamps are blank. */
  function EditFormInput(p: Profile): (u: UserProfile)
    ensures u.id == p.id
    ensures u.displayName == p.displayName.GetOr("") && u.username == p.username.GetOr("")
    ensures u.avatarUrl == p.avatarUrl.GetOr("") && u.bio == p.bio.GetOr("")
    ensures u.isPrivate == (p.isPrivate == Some(true))
  {
    UserProfile(p.id, OrElse(p.displayName, ""), OrElse(p.username, ""), OrElse(p.avatarUrl, ""), OrElse(p.bio, ""),
                p.email, p.phone, p.website, p.location,
                p.isPrivate.GetOr(false), p.isVerified, "", "")
  }

  /** The header's state: the shown profile and whether the editor is open. */
  datatype HeaderState = HeaderState(user: Profile, editing: bool)

  /** The state after a save and the page to navigate to, if any. */
  datatype Saved = Saved(state: HeaderState, navigateTo: Option<string>)

  /** `r` is `{ ...p, ...u }`: the update's keys overwrite; its optional keys
      overwrite only when present; the counters are not keys of the update, and
      `is_verified` is a different key from the shown `isVerified`, so the
      counters and the verification badge keep their values. */
  predicate MergedFrom(p: Profile, u: UserProfile, r: Profile) {
    && r.id == u.id
    && r.displayName == Some(u.displayName) && r.username == Some(u.username)
    && r.avatarUrl == Some(u.avatarUrl) && r.bio == Some(u.bio)
    && r.isPrivate == Some(u.isPrivate)
    && r.email == (if u.email.Some? then u.email else p.email)
    && r.phone == (if u.phone.Some? then u.phone else p.phone)
    && r.website == (if u.website.Some? then u.website else p.website)
    && r.location == (if u.location.Some? then u.location else p.location)
    && r.postsCount == p.postsCount
    && r.followersCount == p.followersCount && r.followingCount == p.followingCount
    && r.isVerified == p.isVerified
  }

  /** The merge `{ ...prevUser, ...updatedData }`. */
  function MergeProfile(p: Profile, u: UserProfile): (r: Profile)
    ensures MergedFrom(p, u, r)
  {
    p.(id := u.id, displayName := Some(u.displayName), username := Some(u.username),
       avatarUrl := Some(u.avatarUrl), bio := Some(u.bio),
       email := if u.email.Some? then u.email else p.email,
       phone := if u.phone.Some? then u.phone else p.phone,
       website := if u.website.Some? then u.website else p.website,
       location := if u.location.Some? then u.location else p.location,
       isPrivate := Some(u.isPrivate))
  }

  /** `handleSaveProfile`: merges the update, closes the editor, and moves to
      the new username's page only when that username is non-empty and
      differs from the one the page was opened with. */
  function HandleSaveProfile(st: HeaderState, initialUsername: Option<string>, u: UserProfile): (s: Saved)
    ensures !s.state.editing
    // every field of the update is shown, and the counters and badge are kept
    ensures MergedFrom(st.user, u, s.state.user)
    ensures s.navigateTo.Some? <==> u.username != "" && Some(u.username) != initialUsername
    ensures s.navigateTo.Some? ==> s.navigateTo.value == "/profile/" + u.username
  {
    var navigate := if u.username != "" && Some(u.username) != initialUsername
                    then Some("/profile/" + u.username) else None;
    Saved(HeaderState(MergeProfile(st.user, u), false), navigate)
  }

  /** Saving the same update twice shows the same profile as saving it once. */
  lemma SaveTwiceSameAsOnce(st: HeaderState, initialUsername: Option<string>, u: UserProfile)
    ensures var s1 := HandleSaveProfile(st, initialUsername, u);
            HandleSaveProfile(s1.state, initialUsername, u).state == s1.state
  {
  }

  /** Saving the edit form unchanged only normalises: null text becomes empty
      text, a missing privacy flag becomes false, nothing else changes, and
      there is no navigation while the username is the one the page opened
      with. */
  lemma SaveUnchangedFormNormalises(st: HeaderState, initialUsername: Option<string>)
    requires st.user.username == initialUsername
    ensures var s := HandleSaveProfile(st, initialUsername, EditFormInput(st.user));
            && s.state.user == st.user.(displayName := Some(st.user.displayName.GetOr("")),
                                        username := Some(st.user.username.GetOr("")),
                                        avatarUrl := Some(st.user.avatarUrl.GetOr("")),
                                        bio := Some(st.user.bio.GetOr("")),
                                        isPrivate := Some(st.user.isPrivate.GetOr(false)))
            && s.navigateTo.None?
  {
  }

  /** The private-account notice shows on a private profile to its owner only. */
  predicate ShowsPrivateNotice(viewer: Option<UserId>, p: Profile) {
    p.isPrivate == Some(true) && IsOwnProfile(viewer, p)
  }

  /** Visitors never see the notice, whatever the profile's setting. */
  lemma NoticeHiddenFromVisitors(viewer: Option<UserId>, p: Profile)
    requires !IsOwnProfile(viewer, p)
    ensures !ShowsPrivateNotice(viewer, p)
  {
  }

  /** The text the avatar initial is taken from: the display name, else the
      username, else "U" (empty strings count as missing). */
  function AvatarSource(p: Profile): (r: string)
    ensures r != []
    ensures p.displayName.Some? && p.displayName.value != "" ==> r == p.displayName.value
    ensures (p.displayName.None? || p.displayName.value == "") && p.username.Some? && p.username.value != "" ==>
              r == p.username.value
    ensures (p.displayName.None? || p.displayName.value == "") && (p.username.None? || p.username.value == "") ==>
              r == "U"
  {
    if p.displayName.Some? && p.displayName.value != "" then p.displayName.value
    else if p.username.Some? && p.username.value != "" then p.username.value
    else "U"
  }

  /** The avatar fallback: the first character of the source, upper-cased. */
  function AvatarInitial(p: Profile): (r: string)
    ensures |r| == 1
    ensures r[0] == UpperChar(AvatarSource(p)[0])
    ensures 'a' <= AvatarSource(p)[0] <= 'z' ==> 'A' <= r[0] <= 'Z'
    ensures !('a' <= r[0] <= 'z')
  {
    [UpperChar(AvatarSource(p)[0])]
  }

  /** The initial depends on the display name and username only: profiles that
      agree on those two show the same initial. */
  lemma AvatarIgnoresOtherFields(p: Profile, q: Profile)
    requires p.displayName == q.displayName && p.username == q.username
    ensures AvatarInitial(p) == AvatarInitial(q)
  {
  }

  /** Without a display name or username the avatar shows "U". */
  lemma AnonymousAvatarIsU(p: Profile)
    requires p.displayName.None? || p.displayName.value == ""
    requires p.username.None? || p.username.value == ""
    ensures AvatarInitial(p) == "U"
  {
  }
}

=== FILE: settings_actions.dfy ===
/** The server action that saves the settings form: an authentication guard,
    then an update of the profile row, then an update of the privacy row with
    an insert as fallback. Each store call's error is an input. */
module SettingsActions {
  import opened Wrappers
  import opened Types

  /** The values the form submits (the fields of both tables). */
  datatype FormValues = FormValues(
    displayName: string,
    username: string,
    bio: Option<string>,
    profileVisibility: Visibility,
    showOnlineStatus: bool,
    allowFollowRequests: bool)

  /** The columns of the profiles table the action writes. */
  datatype ProfileFields = ProfileFields(displayName: string, username: string, bio: Option<string>)

  /** The columns of the privacy settings table the action writes. */
  datatype PrivacyFields = PrivacyFields(profileVisibility: Visibility, showOnlineStatus: bool, allowFollowRequests: bool)

  /** The two tables, keyed by account id. */
  datatype Db = Db(profiles: map<UserId, ProfileFields>, privacy: map<UserId, PrivacyFields>)

  /** The error (if any) each store call reports. */
  datatype Replies = Replies(profileError: Option<string>, privacyError: Option<string>, insertError: Option<string>)

  /** What the action returns to the form: `{ error }`, absent on success. */
  datatype ActionResult = ActionResult(error: Option<string>)

  /** The tables after the action and what it returned. */
  datatype Saved = Saved(db: Db, result: ActionResult)

  const NotLoggedInMessage := "You must be logged in to update your profile."

  /** The profile row after the form's update: name and username from the
      form; the bio from the form when it has one, and otherwise kept, because
      a key holding `undefined` is dropped when the update is serialised. */
  function ProfileOf(row: ProfileFields, f: FormValues): (r: ProfileFields)
    ensures r.displayName == f.displayName && r.username == f.username
    ensures f.bio.Some? ==> r.bio == f.bio
    ensures f.bio.None? ==> r.bio == row.bio
  {
    ProfileFields(f.displayName, f.username, if f.bio.Some? then f.bio else row.bio)
  }

  /** The profiles table after `update(...).eq('id', uid)`. */
  function UpdateProfileRow(m: map<UserId, ProfileFields>, uid: UserId, f: FormValues): map<UserId, ProfileFields> {
    if uid in m then UpdateWhere(m, uid, ProfileOf(m[uid], f)) else m
  }

  /** The privacy columns taken from the form, exactly as supplied. */
  function PrivacyOf(f: FormValues): PrivacyFields {
    PrivacyFields(f.profileVisibility, f.showOnlineStatus, f.allowFollowRequests)
  }

  /** An `update ... where id = k`: rewrites the row when there is one and
      affects no row, without error, when there is none. */
  function UpdateWhere<V>(m: map<UserId, V>, k: UserId, v: V): (r: map<UserId, V>)
    ensures r.Keys == m.Keys
    ensures k in m ==> r[k] == v
    ensures forall j :: j in m && j != k ==> r[j] == m[j]
  {
    if k in m then m[k := v] else m
  }

  /** The error PostgreSQL reports for a second row under a unique key. */
  const DuplicateKeyMessage := "duplicate key value violates unique constraint"

  /** What inserting the privacy row for `uid` reports: the store's own error
      if it gives one, and a key violation when the account already has a
      row (the table holds one row per account). */
  function InsertError(m: map<UserId, PrivacyFields>, uid: UserId, replied: Option<string>): (e: Option<string>)
    ensures e.None? <==> replied.None? && uid !in m
    ensures e.Some? ==> e == replied || e == Some(DuplicateKeyMessage)
  {
    if replied.Some? then replied
    else if uid in m then Some(DuplicateKeyMessage)
    else None
  }

  /** Rows of accounts other than `uid` are the same in both states. */
  predicate OthersUnchanged(db: Db, db': Db, uid: UserId) {
    && db'.profiles.Keys - {uid} == db.profiles.Keys - {uid}
    && (forall j :: j != uid && j in db.profiles ==> j in db'.profiles && db'.profiles[j] == db.profiles[j])
    && db'.privacy.Keys - {uid} == db.privacy.Keys - {uid}
    && (forall j :: j != uid && j in db.privacy ==> j in db'.privacy && db'.privacy[j] == db.privacy[j])
  }

  /** `updateProfile`, as written: the privacy insert runs only when the
      privacy update reports an error. */
  function UpdateProfile(db: Db, user: Option<UserId>, form: FormValues, replies: Replies): (s: Saved)
    // no user: an error and no write
    ensures user.None? ==> s.db == db && s.result.error == Some(NotLoggedInMessage)
    // a profile error is returned at once and nothing is written
    ensures user.Some? && replies.profileError.Some? ==>
              s.db == db && s.result.error == replies.profileError
    // success exactly when the profile update succeeds and either the privacy
    // update does, or it fails and the fallback insert creates the row
    ensures s.result.error.None? <==>
              && user.Some? && replies.profileError.None?
              && (replies.privacyError.None? || (replies.insertError.None? && user.value !in db.privacy))
    // the privacy update's own error is never returned: only the insert's
    ensures user.Some? && replies.profileError.None? && replies.privacyError.Some? ==>
              s.result.error == InsertError(db.privacy, user.value, replies.insertError)
    ensures user.Some? && replies.profileError.None? && replies.privacyError.Some? && replies.insertError.Some? ==>
              s.result.error == replies.insertError && s.db.privacy == db.privacy
    // the profile row, when there is one, holds the form's values once its
    // update succeeded; a form without a bio keeps the stored bio
    ensures user.Some? && replies.profileError.None? && user.value in db.profiles ==>
              && user.value in s.db.profiles
              && s.db.profiles[user.value].displayName == form.displayName
              && s.db.profiles[user.value].username == form.username
              && s.db.profiles[user.value].bio == (if form.bio.Some? then form.bio else db.profiles[user.value].bio)
    // no profile row is created
    ensures s.db.profiles.Keys == db.profiles.Keys
    // no privacy row is removed, and only the user's can be added
    ensures db.privacy.Keys <= s.db.privacy.Keys
    ensures user.Some? ==> s.db.privacy.Keys <= db.privacy.Keys + {user.value}
    // after success an existing privacy row holds the flags exactly as supplied
    ensures s.result.error.None? && user.Some? && user.value in db.privacy ==>
              user.value in s.db.privacy && s.db.privacy[user.value] == PrivacyOf(form)
    // a missing privacy row is created only through the fallback insert
    ensures s.result.error.None? && user.Some? && user.value !in db.privacy ==>
              && (user.value in s.db.privacy <==> replies.privacyError.Some?)
              && (user.value in s.db.privacy ==> s.db.privacy[user.value] == PrivacyOf(form))
    // a failed save writes nothing to the privacy table: the failing update
    // matched no row or wrote none, and a failing insert adds none
    ensures s.result.error.Some? ==> s.db.privacy == db.privacy
    ensures user.Some? ==> OthersUnchanged(db, s.db, user.value)
  {
    if user.None? then Saved(db, ActionResult(Some(NotLoggedInMessage)))
    else
      var uid := user.value;
      if replies.profileError.Some? then Saved(db, ActionResult(replies.profileError))
      else
        var profiles := UpdateProfileRow(db.profiles, uid, form);
        if replies.privacyError.None? then
          Saved(Db(profiles, UpdateWhere(db.privacy, uid, PrivacyOf(form))), ActionResult(None))
        else
          var err := InsertError(db.privacy, uid, replies.insertError);
          if err.Some? then Saved(Db(profiles, db.privacy), ActionResult(err))
          else Saved(Db(profiles, db.privacy[uid := PrivacyOf(form)]), ActionResult(None))
  }

  /** The replies when every store call succeeds. */
  const AllSucceed := Replies(None, None, None)

  /** As written, an account without a privacy row gets none: the update
      affects no row, reports no error, so the insert meant for this case
      never runs, and the action still reports success. */
  lemma MissingPrivacyRowNotCreated(db: Db, uid: UserId, form: FormValues)
    requires uid !in db.privacy
    ensures var s := UpdateProfile(db, Some(uid), form, AllSucceed);
            s.result.error.None? && uid !in s.db.privacy
  {
  }

  /** `updateProfile` with the fallback insert also run when the account has
      no privacy row, as the code's own comment intends. */
  function UpdateProfileCorrected(db: Db, user: Option<UserId>, form: FormValues, replies: Replies): (s: Saved)
    ensures user.None? ==> s.db == db && s.result.error == Some(NotLoggedInMessage)
    ensures user.Some? && replies.profileError.Some? ==>
              s.db == db && s.result.error == replies.profileError
    ensures user.Some? && replies.profileError.None? && user.value in db.profiles ==>
              && user.value in s.db.profiles
              && s.db.profiles[user.value].displayName == form.displayName
              && s.db.profiles[user.value].username == form.username
              && s.db.profiles[user.value].bio == (if form.bio.Some? then form.bio else db.profiles[user.value].bio)
    // success means the privacy row exists and holds the form's values
    ensures s.result.error.None? ==>
              user.Some? && user.value in s.db.privacy && s.db.privacy[user.value] == PrivacyOf(form)
    // success exactly when the profile update succeeds and the row could be
    // written, by the update when it exists and by the insert otherwise
    ensures s.result.error.None? <==>
              && user.Some? && replies.profileError.None?
              && (if user.value in db.privacy then replies.privacyError.None? else replies.insertError.None?)
    ensures db.privacy.Keys <= s.db.privacy.Keys
    // a failed save writes nothing to the privacy table: the failing update
    // matched no row or wrote none, and a failing insert adds none
    ensures s.result.error.Some? ==> s.db.privacy == db.privacy
    ensures user.Some? ==> OthersUnchanged(db, s.db, user.value)
  {
    if user.None? then Saved(db, ActionResult(Some(NotLoggedInMessage)))
    else
      var uid := user.value;
      if replies.profileError.Some? then Saved(db, ActionResult(replies.profileError))
      else
        var profiles := UpdateProfileRow(db.profiles, uid, form);
        if replies.privacyError.None? && uid in db.privacy then
          Saved(Db(profiles, UpdateWhere(db.privacy, uid, PrivacyOf(form))), ActionResult(None))
        else
          var err := InsertError(db.privacy, uid, replies.insertError);
          if err.Some? then Saved(Db(profiles, db.privacy), ActionResult(err))
          else Saved(Db(profiles, db.privacy[uid := PrivacyOf(form)]), ActionResult(None))
  }

  /** The correction changes nothing for an account that already has a
      privacy row. */
  lemma CorrectionAgreesOnExistingRow(db: Db, user: Option<UserId>, form: FormValues, replies: Replies)
    requires user.Some? ==> user.value in db.privacy
    ensures UpdateProfileCorrected(db, user, form, replies) == UpdateProfile(db, user, form, replies)
  {
  }

  /** The action writes `allow_follow_requests` as supplied, so a save can
      leave a public account that still takes follow requests. */
  lemma SaveCanBreakDerivation(db: Db, uid: UserId, form: FormValues)
    requires uid in db.privacy
    requires form.profileVisibility == Public && form.allowFollowRequests
    ensures var s := UpdateProfile(db, Some(uid), form, AllSucceed);
            && s.result.error.None?
            && !FollowRequestsDerived(s.db.privacy[uid].profileVisibility, s.db.privacy[uid].allowFollowRequests)
  {
  }
}

=== FILE: settings_form.dfy ===
/** The settings form: the schema's length and enum rules, the default
    values taken from the stored rows, the view/edit mode switch after a
    submit, and the labels of the read-only view. */
module SettingsForm {
  import opened Wrappers
  import opened Types
  import opened SettingsActions
  import opened Strings

  const MinDisplayNameLength := 1
  const MinUsernameLength := 3
  const MaxBioLength := 160

  /** The form's fields before validation: visibility is the chosen string
      and the two switches may be unset. */
  datatype RawForm = RawForm(
    displayName: string,
    username: string,
    bio: Option<string>,
    profileVisibility: string,
    showOnlineStatus: Option<bool>,
    allowFollowRequests: Option<bool>)

  /** The schema's complaints. */
  datatype FormError = NameRequired | UsernameTooShort | BioTooLong | InvalidVisibility

  /** Every rule the raw values break, in field order. */
  function Issues(raw: RawForm): seq<FormError> {
    (if |raw.displayName| < MinDisplayNameLength then [NameRequired] else [])
    + (if |raw.username| < MinUsernameLength then [UsernameTooShort] else [])
    + (if raw.bio.Some? && |raw.bio.value| > MaxBioLength then [BioTooLong] else [])
    + (if ParseVisibility(raw.profileVisibility).None? then [InvalidVisibility] else [])
  }

  /** The schema: accepts exactly the forms that satisfy every rule, filling
      an unset switch with `true`; otherwise lists each broken rule. */
  function Validate(raw: RawForm): (r: Result<FormValues, seq<FormError>>)
    ensures r.Success? <==>
              && |raw.displayName| >= 1
              && |raw.username| >= 3
              && (raw.bio.Some? ==> |raw.bio.value| <= 160)
              && raw.profileVisibility in {"public", "followers", "private"}
    ensures r.Success? ==>
              && r.value.displayName == raw.displayName
              && r.value.username == raw.username
              && r.value.bio == raw.bio
              && VisibilityName(r.value.profileVisibility) == raw.profileVisibility
              && r.value.showOnlineStatus == raw.showOnlineStatus.GetOr(true)
              && r.value.allowFollowRequests == raw.allowFollowRequests.GetOr(true)
    ensures r.Failure? ==>
              && |r.error| > 0
              && (NameRequired in r.error <==> raw.displayName == [])
              && (UsernameTooShort in r.error <==> |raw.username| < 3)
              && (BioTooLong in r.error <==> raw.bio.Some? && |raw.bio.value| > 160)
              && (InvalidVisibility in r.error <==> raw.profileVisibility !in {"public", "followers", "private"})
  {
    var issues := Issues(raw);
    if issues == [] then
      Success(FormValues(raw.displayName, raw.username, raw.bio,
                         ParseVisibility(raw.profileVisibility).value,
                         raw.showOnlineStatus.GetOr(true), raw.allowFollowRequests.GetOr(true)))
    else Failure(issues)
  }

  /** The follow-request switch is independent of visibility: changing
      either in a valid form keeps it valid, with both values as chosen. */
  lemma FlagIndependentOfVisibility(raw: RawForm, v: Visibility, allow: bool)
    requires Validate(raw).Success?
    ensures var r := Validate(raw.(profileVisibility := VisibilityName(v), allowFollowRequests := Some(allow)));
            r.Success? && r.value.profileVisibility == v && r.value.allowFollowRequests == allow
  {
    ParseName(v);
  }

  /** The stored profile columns the form starts from; any may be null. */
  datatype ProfileRow = ProfileRow(displayName: Option<string>, username: Option<string>, bio: Option<string>)

  /** The stored privacy columns the form starts from; any may be missing. */
  datatype PrivacyRow = PrivacyRow(profileVisibility: Option<Visibility>, showOnlineStatus: Option<bool>, allowFollowRequests: Option<bool>)

  /** The form's initial values: empty text for null columns, public for a
      missing visibility, the switches as stored. */
  function DefaultValues(p: ProfileRow, q: PrivacyRow): (r: RawForm)
    // a non-empty stored text is kept, and a null one starts empty
    ensures p.displayName.Some? && p.displayName.value != "" ==> r.displayName == p.displayName.value
    ensures p.username.Some? && p.username.value != "" ==> r.username == p.username.value
    ensures p.displayName.None? || p.displayName == Some("") ==> r.displayName == ""
    ensures p.username.None? || p.username == Some("") ==> r.username == ""
    // the bio is always set: the stored bio, or empty when there is none
    ensures r.bio.Some? && (p.bio.Some? ==> r.bio.value == p.bio.value)
    ensures p.bio.None? ==> r.bio == Some("")
    // the visibility is always one the schema accepts
    ensures ParseVisibility(r.profileVisibility) == Some(q.profileVisibility.GetOr(Public))
    // the switches start as stored, unset when missing
    ensures r.showOnlineStatus == q.showOnlineStatus && r.allowFollowRequests == q.allowFollowRequests
  {
    RawForm(OrElse(p.displayName, ""), OrElse(p.username, ""), Some(OrElse(p.bio, "")),
            VisibilityName(q.profileVisibility.GetOr(Public)),
            q.showOnlineStatus, q.allowFollowRequests)
  }

  /** A stored account whose columns already satisfy the schema opens as a
      valid form carrying its own values (a null bio as the empty bio, a
      missing visibility as public, unset switches as on). */
  lemma DefaultsOfValidRowValidate(p: ProfileRow, q: PrivacyRow)
    requires p.displayName.Some? && |p.displayName.value| >= 1
    requires p.username.Some? && |p.username.value| >= 3
    requires p.bio.Some? ==> |p.bio.value| <= 160
    ensures var r := Validate(DefaultValues(p, q));
            && r.Success?
            && r.value.displayName == p.displayName.value
            && r.value.username == p.username.value
            && r.value.bio == Some(p.bio.GetOr(""))
            && r.value.profileVisibility == q.profileVisibility.GetOr(Public)
            && r.value.showOnlineStatus == q.showOnlineStatus.GetOr(true)
            && r.value.allowFollowRequests == q.allowFollowRequests.GetOr(true)
  {
    var v := q.profileVisibility.GetOr(Public);
    ParseName(v);
  }

  /** A profile with null name and username opens as a form the schema
      rejects on both. */
  lemma DefaultsOfEmptyRowRejected(q: PrivacyRow)
    ensures var r := Validate(DefaultValues(ProfileRow(None, None, None), q));
            r.Failure? && NameRequired in r.error && UsernameTooShort in r.error
  {
  }

  /** The action does not apply the schema: with every store call succeeding
      it stores values the form would have refused. */
  lemma ServerSkipsValidation(db: Db, uid: UserId)
    requires uid in db.profiles && uid in db.privacy
    ensures var raw := RawForm("", "ab", None, "public", Some(true), Some(true));
            var form := FormValues("", "ab", None, Public, true, true);
            var s := UpdateProfile(db, Some(uid), form, AllSucceed);
            && Validate(raw).Failure?
            && s.result.error.None?
            && s.db.profiles[uid] == ProfileFields("", "ab", db.profiles[uid].bio)
  {
  }

  /** Whether the settings are shown read-only or as the form. */
  datatype Mode = Viewing | Editing

  /** `if (result.error)`: an error counts only when it is a non-empty string. */
  predicate Truthy(error: Option<string>) {
    error.Some? && error.value != ""
  }

  /** What a submit did: the mode afterwards, the values passed to the
      action (none when the schema refused them) and the schema's errors. */
  datatype Submit = Submit(mode: Mode, sent: Option<FormValues>, errors: seq<FormError>)

  /** A submit in edit mode: the schema runs first; only valid values reach
      the action, and only a result without a (truthy) error returns to the
      read-only view. `result` is what the action answers when called. */
  function SubmitForm(raw: RawForm, result: ActionResult): (s: Submit)
    ensures s.mode == Viewing <==> Validate(raw).Success? && !Truthy(result.error)
    ensures s.sent.Some? <==> Validate(raw).Success?
    ensures s.sent.Some? ==> s.sent.value == Validate(raw).value && s.errors == []
    ensures s.sent.None? ==> s.errors == Validate(raw).error
  {
    match Validate(raw)
    case Failure(errors) => Submit(Editing, None, errors)
    case Success(values) =>
      if Truthy(result.error) then Submit(Editing, Some(values), [])
      else Submit(Viewing, Some(values), [])
  }

  /** Returning to the read-only view means the values passed to the action
      satisfy every rule of the schema and the action reported no error. */
  lemma ViewingMeansValidSent(raw: RawForm, result: ActionResult)
    requires SubmitForm(raw, result).mode == Viewing
    ensures var s := SubmitForm(raw, result);
            && s.sent.Some? && s.errors == [] && !Truthy(result.error)
            && |s.sent.value.displayName| >= MinDisplayNameLength
            && |s.sent.value.username| >= MinUsernameLength
            && (s.sent.value.bio.Some? ==> |s.sent.value.bio.value| <= MaxBioLength)
  {
  }

  /** The read-only view's text for a switch. */
  function AllowedLabel(b: bool): string {
    if b then "Allowed" else "Not Allowed"
  }

  /** The read-only view's text for a visibility. */
  function VisibilityLabel(v: Visibility): string {
    match v
    case Public => "Public"
    case Followers => "Followers Only"
    case Private => "Private"
  }

  /** The read-only view tells every value apart: the switch labels differ,
      and so do the three visibility labels. */
  lemma LabelsDistinguishValues(a: bool, b: bool, v: Visibility, w: Visibility)
    ensures AllowedLabel(a) == AllowedLabel(b) <==> a == b
    ensures VisibilityLabel(v) == VisibilityLabel(w) <==> v == w
  {
    if a != b {
      assert |AllowedLabel(true)| != |AllowedLabel(false)|;
    }
    if v != w {
      assert VisibilityLabel(v)[0] != VisibilityLabel(w)[0] || |VisibilityLabel(v)| != |VisibilityLabel(w)|;
    }
  }
}

=== FILE: strings.dfy ===
/** The JavaScript string operations the components rely on, over `seq<char>`:
    `split` on a single character, `trim`, `toUpperCase` of one letter, and
    the `||` fallback on a string. */
module Strings {
  import opened Wrappers

  /** Number of occurrences of `d` in `s`. */
  function Count(s: string, d: char): nat {
    if s == [] then 0 else (if s[0] == d then 1 else 0) + Count(s[1..], d)
  }

  /** Puts the parts back together with `d` between consecutive parts. */
  function Join(parts: seq<string>, d: char): string
    requires |parts| > 0
  {
    if |parts| == 1 then parts[0] else parts[0] + [d] + Join(parts[1..], d)
  }

  /** `s.split(d)` for a one-character separator: the maximal runs between
      separators, empty runs included, so there is one more part than there
      are separators and the empty string splits into one empty part. */
  function Split(s: string, d: char): (parts: seq<string>)
    ensures |parts| == Count(s, d) + 1
    ensures forall k :: 0 <= k < |parts| ==> d !in parts[k]
    ensures parts[0] <= s
    ensures |parts[0]| < |s| ==> s[|parts[0]|] == d
  {
    if s == [] then [[]]
    else
      var rest := Split(s[1..], d);
      if s[0] == d then [[]] + rest
      else [[s[0]] + rest[0]] + rest[1..]
  }

  /** Joining the parts of a split gives back the original string. */
  lemma {:induction false} JoinSplit(s: string, d: char)
    ensures Join(Split(s, d), d) == s
  {
    if s != [] {
      var rest := Split(s[1..], d);
      JoinSplit(s[1..], d);
      if s[0] == d {
        assert Split(s, d) == [[]] + rest;
        assert Split(s, d)[1..] == rest;
      } else {
        var parts := Split(s, d);
        assert parts == [[s[0]] + rest[0]] + rest[1..];
        if |rest| == 1 {
          assert Join(parts, d) == [s[0]] + rest[0];
        } else {
          assert parts[1..] == rest[1..];
          assert Join(rest, d) == rest[0] + [d] + Join(rest[1..], d);
        }
      }
    }
  }

  /** Characters JavaScript's `trim` removes: the ECMAScript WhiteSpace and
      LineTerminator code points. */
  predicate IsWhitespace(c: char) {
    || c == '\t' || c == '\n' || c == '\U{000B}' || c == '\U{000C}' || c == '\r'
    || c == ' ' || c == '\U{00A0}' || c == '\U{1680}'
    || ('\U{2000}' <= c <= '\U{200A}')
    || c == '\U{2028}' || c == '\U{2029}' || c == '\U{202F}' || c == '\U{205F}'
    || c == '\U{3000}' || c == '\U{FEFF}'
  }

  /** Every character of `s` is whitespace (the empty string included). */
  predicate Blank(s: string) {
    forall i :: 0 <= i < |s| ==> IsWhitespace(s[i])
  }

  /** Neither end of `s` is whitespace. */
  predicate Trimmed(s: string) {
    |s| > 0 ==> !IsWhitespace(s[0]) && !IsWhitespace(s[|s| - 1])
  }

  /** Drops leading whitespace: the result is the suffix after it. */
  function TrimStart(s: string): (r: string)
    ensures |r| <= |s| && r == s[|s| - |r|..]
    ensures Blank(s[..|s| - |r|])
    ensures |r| > 0 ==> !IsWhitespace(r[0])
  {
    if |s| > 0 && IsWhitespace(s[0]) then TrimStart(s[1..]) else s
  }

  /** Drops trailing whitespace: the result is the prefix before it. */
  function TrimEnd(s: string): (r: string)
    ensures |r| <= |s| && r == s[..|r|]
    ensures Blank(s[|r|..])
    ensures |r| > 0 ==> !IsWhitespace(r[|r| - 1])
  {
    if |s| > 0 && IsWhitespace(s[|s| - 1]) then TrimEnd(s[..|s| - 1]) else s
  }

  /** `r` sits in `s` at offset `lo` with only whitespace before and after it. */
  predicate BlankAround(s: string, r: string, lo: int) {
    && 0 <= lo <= |s| - |r|
    && r == s[lo..lo + |r|]
    && Blank(s[..lo])
    && Blank(s[lo + |r|..])
  }

  /** `s.trim()`: the slice of `s` left after removing whitespace at both ends. */
  function Trim(s: string): (r: string)
    ensures Trimmed(r)
    ensures exists lo :: BlankAround(s, r, lo)
  {
    var r := TrimEnd(TrimStart(s));
    TrimEndOfTrimStart(s);
    r
  }

  /** `TrimEnd` after `TrimStart` leaves a trimmed slice with blank text on
      both sides, starting where the leading whitespace ends. */
  lemma TrimEndOfTrimStart(s: string)
    ensures Trimmed(TrimEnd(TrimStart(s)))
    ensures BlankAround(s, TrimEnd(TrimStart(s)), |s| - |TrimStart(s)|)
  {
    var t := TrimStart(s);
    var r := TrimEnd(t);
    var lo := |s| - |t|;
    assert Trimmed(r) by {
      assert |r| > 0 ==> r[0] == t[0];
    }
    PrefixOfSuffix(s, t, r, lo);
  }

  /** A prefix `r` of the suffix `t` of `s` that starts at `lo` is the slice
      of `s` at `lo`, and whatever follows `r` in `t` follows it in `s`. */
  lemma PrefixOfSuffix(s: string, t: string, r: string, lo: int)
    requires 0 <= lo <= |s| && t == s[lo..]
    requires |r| <= |t| && r == t[..|r|]
    requires Blank(s[..lo]) && Blank(t[|r|..])
    ensures BlankAround(s, r, lo)
  {
    assert s[lo + |r|..] == t[|r|..];
  }

  /** An all-whitespace string loses everything to `TrimStart`. */
  lemma {:induction false} TrimStartOfBlank(s: string)
    requires Blank(s)
    ensures TrimStart(s) == []
  {
    if s != [] {
      assert Blank(s[1..]) by {
        forall i | 0 <= i < |s[1..]| ensures IsWhitespace(s[1..][i]) {
          assert s[1..][i] == s[i + 1];
        }
      }
      TrimStartOfBlank(s[1..]);
    }
  }

  /** Trimming leaves nothing exactly when the string is all whitespace. */
  lemma TrimEmptyIffBlank(s: string)
    ensures Trim(s) == [] <==> Blank(s)
  {
    var t := TrimStart(s);
    var lo := |s| - |t|;
    if Blank(s) {
      TrimStartOfBlank(s);
    }
    if TrimEnd(t) == [] {
      assert t[0..] == t;
      assert t == [];
      forall i | 0 <= i < |s| ensures IsWhitespace(s[i]) {
        assert s[..lo][i] == s[i];
      }
    }
  }

  /** Trimming twice is the same as trimming once. */
  lemma TrimIdempotent(s: string)
    ensures Trim(Trim(s)) == Trim(s)
  {
    var r := Trim(s);
    assert TrimStart(r) == r;
    assert TrimEnd(r) == r;
  }

  /** `s` ends with `suffix`. */
  predicate EndsWith(s: string, suffix: string) {
    |suffix| <= |s| && s[|s| - |suffix|..] == suffix
  }

  /** `toUpperCase` of one character, for the ASCII letters. */
  function UpperChar(c: char): (u: char)
    ensures 'a' <= c <= 'z' ==> 'A' <= u <= 'Z' && u as int == c as int - 32
    ensures !('a' <= c <= 'z') ==> u == c
    // the result is never a lower-case ASCII letter
    ensures !('a' <= u <= 'z')
  {
    if 'a' <= c <= 'z' then (c as int - 32) as char else c
  }

  /** Upper-casing an upper-cased character changes nothing, and two
      characters upper-case alike only if they are equal or one is the
      lower-case form of the other. */
  lemma UpperIdempotent(c: char, d: char)
    ensures UpperChar(UpperChar(c)) == UpperChar(c)
    ensures UpperChar(c) == UpperChar(d) ==>
              c == d || (c as int) - (d as int) == 32 || (d as int) - (c as int) == 32
  {
  }

  /** JavaScript `x || fallback` on an optional string: the fallback when the
      value is missing or empty. */
  function OrElse(x: Option<string>, fallback: string): (r: string)
    ensures x.Some? && x.value != "" ==> r == x.value
    ensures x.None? || x.value == "" ==> r == fallback
    // the result is empty only when both the value and the fallback are
    ensures r == "" <==> (x.None? || x.value == "") && fallback == ""
  {
    if x.Some? && x.value != "" then x.value else fallback
  }

  /** Applying the same fallback to a result again changes nothing. */
  lemma OrElseSettles(x: Option<string>, fallback: string)
    ensures OrElse(Some(OrElse(x, fallback)), fallback) == OrElse(x, fallback)
  {
  }
}

=== FILE: types.dfy ===
/** The records of the application's data model that the components share:
    accounts, follow edges, comments, posts and their media. */
module Types {
  import opened Wrappers

  /** Account identifiers are opaque strings (database UUIDs). */
  type UserId = string

  /** A viewer id the components treat as logged in: present and, since the
      guards test JavaScript truthiness, not the empty string. */
  predicate SignedIn(viewer: Option<UserId>) {
    viewer.Some? && viewer.value != ""
  }

  /** Who may see a profile or a post. */
  datatype Visibility = Public | Followers | Private

  /** The wire name of a visibility value. */
  function VisibilityName(v: Visibility): string {
    match v
    case Public => "public"
    case Followers => "followers"
    case Private => "private"
  }

  /** Reads a wire name back; any other string is not a visibility. */
  function ParseVisibility(s: string): (r: Option<Visibility>)
    ensures r.Some? ==> VisibilityName(r.value) == s
    ensures r.None? ==> forall v :: VisibilityName(v) != s
  {
    if s == "public" then Some(Public)
    else if s == "followers" then Some(Followers)
    else if s == "private" then Some(Private)
    else None
  }

  /** Parsing a wire name gives back the value it names. */
  lemma ParseName(v: Visibility)
    ensures ParseVisibility(VisibilityName(v)) == Some(v)
  {
  }

  /** Every account that is not fully public asks for approval of new followers. */
  predicate RequiresApproval(v: Visibility) {
    v != Public
  }

  /** The rule tying `allow_follow_requests` to `profile_visibility`:
      public accounts take no requests, all others do. */
  predicate FollowRequestsDerived(v: Visibility, allowFollowRequests: bool) {
    allowFollowRequests == RequiresApproval(v)
  }

  /** The status a stored follow edge can have. */
  datatype FollowStatus = Pending | Accepted | Declined

  /** One row of the follows table: a directed edge keyed by the ordered pair
      (follower, following). The creation timestamp is left out. */
  datatype Follow = Follow(id: nat, follower: UserId, following: UserId, status: FollowStatus) {

    /** This row is the edge from `a` to `b`. */
    predicate Links(a: UserId, b: UserId) {
      follower == a && following == b
    }
  }

  /** A comment on a post. `parentId` is absent for a top-level comment;
      `replies` is filled in only when a thread is assembled (rows read from
      the table carry none). `createdAt` stands for the creation timestamp,
      whose order is the order of the ISO strings the store keeps. */
  datatype Comment = Comment(
    id: int,
    postId: int,
    userId: UserId,
    text: string,
    createdAt: nat,
    parentId: Option<int>,
    replies: seq<Comment>)

  /** One media attachment of a post; width and height may be missing. */
  datatype Media = Media(id: int, url: string, mimeType: string, width: Option<int>, height: Option<int>)

  /** A post. The author record and the engagement counters are left out. */
  datatype Post = Post(
    id: int,
    userId: UserId,
    text: string,
    media: seq<Media>,
    isPrivate: bool,
    visibility: Visibility)

  /** The full account record the profile editor works on. */
  datatype UserProfile = UserProfile(
    id: UserId,
    displayName: string,
    username: string,
    avatarUrl: string,
    bio: string,
    email: Option<string>,
    phone: Option<string>,
    website: Option<string>,
    location: Option<string>,
    isPrivate: bool,
    isVerified: bool,
    createdAt: string,
    updatedAt: string)
}

=== FILE: wrappers.dfy ===
/** Optional values and success/failure results, used wherever the
    original code has a nullable value or an error return. */
module Wrappers {

  /** A value that may be absent (`null` / `undefined` in the original). */
  datatype Option<+T> = None | Some(value: T) {

    /** The value, or `default` when absent (the `??` operator). */
    function GetOr(default: T): T {
      match this
      case Some(v) => v
      case None => default
    }
  }

  /** Either a value or an error. */
  datatype Result<+R, +E> = Success(value: R) | Failure(error: E)
}
